=== FILE: README.md ===
# LaTeX notes builder and directory scaffolding, modelled in Dafny

The repository holds two scripts.

- `build.py` compiles every `.tex` file below its own directory with `xelatex`. The artifact of a source below that directory goes into a mirror of the source tree under `output/`. For a single-file target outside it, `output/` is joined with a relative path that climbs out of `output/`. A source is skipped when its PDF is strictly newer than it. Given one file argument, the script builds only that file and turns the result into the exit status.
- `setup_structure.py` creates the grade × subject directory grid of a curriculum tree, plus a flat list of extracurricular subject directories.

This project models the decision and string logic of both scripts and proves properties about it:

| module | file | models |
|---|---|---|
| `Seqs` | seqs.dfy | generic sequence facts (no duplicates, subsequences) |
| `Text` | text.dfy | the Python string operations used: `startswith`, `endswith`, `in`, `replace`, `split`, `join` |
| `Paths` | paths.dfy | POSIX paths as component lists: `abspath`/`normpath` as lexical resolution, `basename`, `dirname`, `join`, `relpath` |
| `Compile` | compile.dfy | `compile_tex`: how the `xelatex` outcome is classified, and which log lines a failure shows |
| `Naming` | naming.dfy | the artifact name `pdf_name`, both as written and corrected |
| `Build` | build.dfy | `process_file`: the target directory, the artifact path, the incremental skip rule |
| `Walk` | walk.dfy | `os.walk` from the root, with `.git` and the output root pruned |
| `Driver` | driver.dfy | `main`: the single-file exit rules, and the full-tree counting loop |
| `Scaffold` | scaffold.dfy | `create_dirs` over a set-of-paths file system, with `os.makedirs(exist_ok=True)` semantics |

The file system the builder sees is a snapshot. It is a map from existing absolute paths to modification times. Running the compiler is an oracle `tool` that returns the exit status and captured output, or one of the two exceptions `compile_tex` catches. Whether `os.path.relpath` raises `ValueError` is an oracle `relpathFails`.

A directory tree is given as its listing (`Walk.Tree`). Its child order is the order in which the operating system lists entries.

The scaffolding file system is the set of existing directories. Each directory is a path relative to the current directory.

## Model

| member | source | states |
|---|---|---|
| Compile.CompileTex | build.py:37-59 | success exactly when the process exited with status 0. A missing `xelatex` and any other exception are failures with their own diagnostic, never propagated. A non-zero exit carries the failure summary of its output |
| Compile.FailureSummary | build.py:42-51 | a failure shows either `min(5, k)` lines, all starting with `! `, when the log has `k > 0` error lines, or else the last `min(10, n)` lines of the split log |
| Compile.ErrorLinesIn | build.py:43 | the filtered lines are all error lines, no more than the log lines, and every occurrence is kept: each error line occurs in the result exactly as often as in the log, and no other line occurs |
| Compile.ErrorLinesMembership | build.py:43 | a line is kept exactly when it is in the log and starts with `! ` |
| Compile.ErrorLinesSubsequence | build.py:43 | the filter keeps the log's order |
| Compile.FirstErrorsComeFromAPrefix | build.py:43-46 | the first k error lines are all the error lines of some prefix of the log |
| Compile.ShownErrorsAreTheFirst | build.py:43-47 | exactly `min(5, k)` lines are shown, and the `i`-th shown line is the `i`-th error line of the log: `errors[:5]`. They are all error lines of some prefix of the log, in log order, and when the log has at most 5 error lines all of them are shown |
| Compile.ShownTailEndsTheLog | build.py:48-51 | the tail is shown only when no line is an error line. It is non-empty, and joined with newlines it is exactly the end of the captured output |
| Naming.AsWrittenShape | build.py:79 | `replace('.tex', '.pdf')` keeps the length, and it changes a name exactly when `.tex` occurs in it |
| Naming.AsWrittenEndsInPdf | build.py:79 | a name ending in `.tex` is given a name ending in `.pdf` |
| Naming.AsWrittenReversible | build.py:79 | replacing `.pdf` back by `.tex` recovers every name that did not already contain `.pdf` |
| Naming.AsWrittenRewritesInnerTex | build.py:79 | an inner `.tex` is rewritten too: `a.tex` + `b.tex` becomes `a.pdf` + `b.pdf`, not `a.tex` + `b.pdf` |
| Naming.AsWrittenCollides | build.py:79-80 | the distinct sources `s.tex.tex` and `s.pdf.tex` are given the same artifact name `s.pdf.pdf` |
| Naming.PdfNameOfSource | build.py:79 | corrected name: the artifact of `stem.tex` is `stem.pdf` for every stem |
| Naming.PdfNameReversible | build.py:79 | corrected name: the source name is recovered from the artifact name |
| Naming.PdfNameInjective | build.py:79-80 | corrected name: distinct `.tex` names have distinct artifact names |
| Naming.PdfNameShape | build.py:79 | corrected name: the length is kept. Names not ending in `.tex` are kept, and names ending in `.tex` end in `.pdf` |
| Naming.PdfNameAgreesOnPlainSource | build.py:79 | for `stem.tex` with no `.tex` in the stem, the as-written and the corrected name agree |
| Naming.PdfNameAgreesOnOtherName | build.py:79 | a name with no `.tex` at all is kept by both |
| Build.SkipRule | build.py:93-101 | skipped (and reported as success) exactly when the artifact exists and its mtime is strictly greater than the source's. Equal mtimes rebuild |
| Build.RebuildReturnsCompileResult | build.py:93-101 | whenever the compiler runs, including whenever no artifact exists, it runs on the absolute source and the target directory. Its verdict is returned unchanged |
| Build.SecondRunSkips | build.py:93-101 | once an artifact newer than the source has been written, processing the same source again skips |
| Build.MirrorBelowRoot | build.py:68-76 | for a source below the root, the target directory is the source's directory moved under `root/output` |
| Build.MirrorOnRelpathFailure | build.py:70-76 | when `relpath` raises, the target is the output root itself |
| Build.ArtifactBelowRoot | build.py:68-80 | the artifact looked for for `root/d/n` is `root/output/d/m`, with `m` the name `n` with every `.tex` replaced by `.pdf` |
| Build.ArtifactOfPlainSource | build.py:68-80 | for `root/d/stem.tex` whose stem holds no `.tex`, the artifact looked for is `root/output/d/stem.pdf`, the one the compiler writes |
| Build.AsWrittenNameNormal | build.py:79-80 | the rewritten name of a real file name is again a single path component |
| Build.ArtifactIsNotSource | build.py:68-80 | for a source below the root whose `relpath` succeeds, neither the artifact looked for nor the artifact the compiler writes is the source itself |
| Build.ArtifactsCollide | build.py:78-80 | the distinct sources `d/s.tex.tex` and `d/s.pdf.tex` are checked against the same artifact path |
| Build.InnerTexLooksElsewhere | build.py:78-80 | for `a.tex` + `b.tex` the path looked for differs from the path the compiler writes |
| Build.RebuildsWhenNamesDiffer | build.py:93-101 | when the looked-up artifact differs from the written one and is absent, writing the compiler's artifact still leaves the next run compiling |
| Build.CorrectedArtifactBelowRoot | build.py:68-80 | corrected path: the artifact of `root/d/n.tex` is `root/output/d/n.pdf` |
| Build.CorrectedArtifactsDistinct | build.py:68-80 | corrected path: distinct `.tex` sources below the root have distinct artifact paths |
| Build.CollisionInOneRun | build.py:79-99 | as written, once `d/s.pdf.tex` has been compiled to `d/s.pdf.pdf`, a later `d/s.tex.tex` in the same run looks up exactly that artifact and is skipped without being compiled |
| Build.OutsideRootEscapes | build.py:70-76 | as written, with the root `/h/u/n` the target directory of `/h/u/o/x.tex` is `/h/u/n/o`, which is not inside the output root |
| Build.CorrectedTargetInOutput | build.py:70-76 | corrected target: always inside the output root, and for a source below the root the same mirror directory as the script's |
| Paths.RelPathRoundTrip | build.py:71-76 | joining the start directory with `relpath(path, start)` leads back to `path` |
| Paths.RelPathBelow | build.py:71 | below the root, `relpath` is the remaining components, or `.` for the root itself |
| Paths.AbsPathNormal | build.py:68 | `abspath` always yields a normalised absolute path |
| Paths.PathStringRoundTrip | build.py:137-138 | the string of a normalised path reads back as that path, and its basename is the last component |
| Walk.PruneMembership | build.py:129-132 | in a listing without duplicates, a subdirectory survives pruning exactly when it is not `.git` and is not the output root |
| Walk.WalkVisitsUnpruned | build.py:127-132 | the walk descends into a child exactly when the child was not pruned |
| Walk.WalkBelow | build.py:127 | every walked directory lies at or below the start directory |
| Walk.WalkSkipsGit | build.py:129-130 | no walked directory passes through `.git` |
| Walk.WalkSkipsOutput | build.py:131-132 | walking from the root, nothing in or below `root/output` is visited |
| Walk.WalkNormal | build.py:127 | from a normalised root, every entry is a normalised directory listing normal names |
| Walk.WalkTopDown | build.py:127 | the walk is top-down: it starts at its own directory, and every later directory lies below it and its parent directory was walked earlier |
| Driver.CountFiles | build.py:134-139 | the inner loop counts the `.tex` files of one directory, and the ones the per-file verdict accepts |
| Driver.CountEntries | build.py:124-139 | the full-build counters are the number of `.tex` files walked and the number the per-file verdict accepts, in walk order, so `0 <= build_success <= tex_files_found` |
| Driver.CountOkCounts | build.py:138-139 | the success count is the number of walked sources whose `process_file` verdict is true |
| Driver.Run | build.py:103-139 | with an argument: a missing path (the empty string included) reports "not found" and nothing is processed; otherwise the result is `process_file` of that argument, and the exit status is 0 exactly when the path exists and `process_file` succeeded. Without an argument the exit status is 0, and the report holds the number of `.tex` files walked from the root, and the number of them for which `process_file`, evaluated on the starting snapshot, returned true |
| Driver.SourcesOfMembership | build.py:134-137 | a path is counted in a directory exactly when it is a listed file ending in `.tex` |
| Driver.SourcesInMembership | build.py:127-137 | a path is counted exactly when it is counted in some walked directory |
| Driver.TreeSourcesAreTex | build.py:135 | every processed file is named `*.tex` |
| Driver.TreeSourcesSkipGit | build.py:129-130 | no processed file lies inside a `.git` directory below the root |
| Driver.TreeSourcesOutsideOutput | build.py:131-132 | no processed file lies inside the output root |
| Driver.TreeSourcesProcessable | build.py:93-101 | for listed files that exist, `process_file` can be called on them and processes exactly that path and name |
| Scaffold.MakeDirs | setup_structure.py:20 | `makedirs` succeeds exactly for a non-empty path that is new or has `exist_ok`. It keeps what existed, adds the path, and adds only leading directories of the path |
| Scaffold.MakeDirsKeepsTree | setup_structure.py:20 | creating a directory in a real tree leaves a real tree containing the path and all its ancestors |
| Scaffold.MakeDirsExistOk | setup_structure.py:20 | with `exist_ok=True` creation never fails, and repeating it changes nothing |
| Scaffold.TargetsInOrder | setup_structure.py:6-27 | 38 targets: `课内/grade/subject` in grade-major, list order at positions `3i+j`, then `课外/subject` at positions 36 and 37 |
| Scaffold.TargetMembership | setup_structure.py:17-27 | the targets are exactly the curriculum grid and the extracurricular row |
| Scaffold.TargetsDistinct | setup_structure.py:6-27 | the 38 targets are pairwise distinct |
| Scaffold.GridIndex | setup_structure.py:17-19 | position `i·|subjects| + j` of the grid is `root/grades[i]/subjects[j]` |
| Scaffold.GridMembership | setup_structure.py:17-19 | the grid holds exactly `root/g/s` for a listed grade and a listed subject |
| Scaffold.RowMembership | setup_structure.py:18-25 | a row holds exactly the prefix extended by one listed subject |
| Scaffold.CreateRow | setup_structure.py:18-21 | one inner loop logs `prefix/s` per subject in order, and afterwards those paths and their ancestors exist |
| Scaffold.CreateDirs | setup_structure.py:15-27 | one `Created:` line per target, in target order and whatever existed before. The directories afterwards are the old ones plus every target and its ancestors |
| Scaffold.CoveredShape | setup_structure.py:15-27 | exactly the two roots, `课内/grade`, `课内/grade/subject` and `课外/subject` are brought into existence |
| Scaffold.ScaffoldedContents | setup_structure.py:15-27 | every target and all its ancestors exist, nothing is removed, and everything added lies under one of the two roots |
| Scaffold.ScaffoldedKeepsTree | setup_structure.py:20 | a real tree stays a real tree |
| Scaffold.ScaffoldedIdempotent | setup_structure.py:15-27 | running twice leaves the same directories as running once |
| Text.ReplaceAllUnchangedIff | build.py:79 | for a replacement of the pattern's length that differs from it, as `.tex` by `.pdf`, `s.replace(pat, rep) == s` exactly when `pat` does not occur in `s` |
| Text.ReplaceAllInverse | build.py:79 | replacing back undoes a replace when `rep` did not occur in the original and its first character does not recur in it, as for `.pdf` |
| Text.JoinSplit | build.py:51 | `'\n'.join(s.split('\n')) == s` |
| Text.SplitJoin | build.py:51 | splitting a join of separator-free pieces gives back the pieces |

## Left out

- The `xelatex` subprocess, its output capture and `errors='replace'` decoding are an oracle returning the exit status and the decoded text, or the exception kind.
- Console text (`print`) is left out. The model keeps only which lines are selected for display, and for the scaffolding, which path each `Created:` line names.
- `os.walk` is modelled over a given listing. Its real order, symlinks, and errors while listing are not modelled.
- `os.path.abspath` is lexical normalisation against a given current directory, and `os.path.exists` is membership in the snapshot. Windows drives are not modelled; a `relpath` failure is the oracle `relpathFails`.
- `os.makedirs(output_dir)` inside `compile_tex`, and the files `xelatex` writes, are not threaded back into the snapshot. `Build.SecondRunSkips` states the effect of one written artifact separately.
- Build.ProcessSource: `os.path.getmtime` raising on a missing source is uncaught in the script. It is modelled as the precondition `CanProcess` (artifact exists ⇒ source exists), not as a crash outcome.
- Driver.Run: in full-build mode it requires every walked source to be one `process_file` can be called on, as above. `Driver.TreeSourcesProcessable` shows this holds for existing listed files.
- Driver.Run: the full-tree count evaluates every `process_file` on the starting snapshot. A source whose looked-up artifact was written earlier in the same run counts as compiled, where the script skips it: `d/s.tex.tex` after `d/s.pdf.tex` (`Build.CollisionInOneRun`).
- Driver.Verdict: it is false on a path `process_file` cannot be called on, a case `Driver.Run` excludes.
- Scaffold.MakeDirs: the difference between files and directories is not modelled. A path taken by a file, and permission errors, would make `makedirs` raise; both are left out because they are fatal and uncaught in the script.
- The specific Chinese directory names are kept as the literal strings, without Unicode handling.
- Driver.TargetExists: `os.path.exists` is decided on the lexically normalised argument, apart from the empty string. A path that `stat` refuses although its normalised form exists, such as `x.tex/` for a regular file or `missing/../x.tex`, counts as existing.
- Build.TargetDir: `os.path.join(OUTPUT_DIR, rel_path)` is resolved lexically, so `output/../o` is `o`. The kernel resolves `..` through `output/` itself: when `output/` does not exist the script's `os.path.exists(pdf_path)` is false, while the model may look up an existing file and skip.
- Build.Host: modification times are integers, where `os.path.getmtime` returns floats. They are only compared with `>`, so any order-preserving stand-in gives the same decisions.

## Findings

| source | as written | input that shows it | evidently intended | confidence | as-written member | corrected member |
|---|---|---|---|---|---|---|
| build.py:79 | `file_name.replace('.tex', '.pdf')` replaces every occurrence of `.tex` | `ch1.textbook.tex` becomes `ch1.pdftbook.pdf`, while `xelatex` writes `ch1.textbook.pdf`, so the skip check never finds the artifact. Also `a.tex.tex` and `a.pdf.tex` both map to `a.pdf.pdf`, so when `a.pdf.tex` is compiled first in a full build, `a.tex.tex` is then skipped and reported as a success without being compiled | replace only the trailing `.tex` extension | not executed | Build.ArtifactsCollide | Build.CorrectedArtifactsDistinct |
| build.py:70-76 | only a `ValueError` from `relpath` sends a source to the output root; otherwise `rel_path` is used as it is | with the root `/h/u/n`, `/h/u/o/x.tex` gets `OUTPUT_DIR/../o`, that is `/h/u/n/o`, while the comment says a source outside the root goes into the root of the output | a source outside the root is built in `OUTPUT_DIR` | not executed | Build.OutsideRootEscapes | Build.CorrectedTargetInOutput |

=== FILE: build.dfy ===
/**
 * Processing one source file (`process_file` in build.py): where its artifact
 * goes, and whether the compiler runs at all.
 *
 * The artifact directory mirrors the source's directory below the script's
 * root under `<root>/output`. The compiler is skipped exactly when the
 * artifact already exists and is strictly newer than the source.
 */
module Build {
  import opened Seqs
  import opened Text
  import opened Paths
  import opened Compile
  import opened Naming

  /** What `process_file` observes of the machine it runs on. */
  datatype Host = Host(
    cwd: Path,                          // the current directory, for relative arguments
    root: Path,                         // ROOT_DIR, the directory holding the script
    mtime: map<Path, int>,              // existing files and directories, with their modification times
    tool: (Path, Path) -> Invocation,   // running xelatex on (source, output directory)
    relpathFails: Path -> bool          // os.path.relpath raises ValueError for this directory
  )

  predicate Valid(h: Host) {
    Normal(h.cwd) && Normal(h.root)
  }

  /** OUTPUT_DIR */
  function OutputDir(root: Path): Path {
    root + ["output"]
  }

  /** `target_dir`: the output directory joined with the source directory's path relative to the root. */
  function TargetDir(h: Host, source: Path): Path {
    var dir := Dirname(source);
    Resolve(OutputDir(h.root), if h.relpathFails(dir) then ["."] else RelPath(dir, h.root))
  }

  /**
   * `pdf_path`: where the artifact of `source` (whose name was given as
   * `fileName`) is looked for, with the name derived as the script derives it.
   */
  function ArtifactPath(h: Host, source: Path, fileName: Name): Path {
    Resolve(TargetDir(h, source), [PdfNameAsWritten(fileName)])
  }

  /**
   * Where the compiler writes the artifact of a `.tex` source: the source's
   * name with only its extension changed.
   */
  function CorrectedArtifactPath(h: Host, source: Path, fileName: Name): Path {
    Resolve(TargetDir(h, source), [PdfName(fileName)])
  }

  datatype FileOutcome = Skipped | Compiled(result: CompileResult)

  /** What `process_file` returns: a skip counts as a success. */
  predicate Succeeded(o: FileOutcome) {
    o.Skipped? || o.result.ok
  }

  /**
   * The modification time of the source is read only when the artifact
   * exists; reading it for a missing source raises, uncaught.
   */
  predicate CanProcess(h: Host, source: Path, fileName: Name) {
    ArtifactPath(h, source, fileName) in h.mtime ==> source in h.mtime
  }

  /** `process_file` once the source path has been made absolute. */
  function ProcessSource(h: Host, source: Path, fileName: Name): FileOutcome
    requires CanProcess(h, source, fileName)
  {
    var target := TargetDir(h, source);
    var artifact := Resolve(target, [PdfNameAsWritten(fileName)]);
    if artifact in h.mtime && h.mtime[artifact] > h.mtime[source] then Skipped
    else Compiled(CompileTex(h.tool(source, target)))
  }

  /** `process_file(source_path)` */
  function ProcessFile(h: Host, sourcePath: string): FileOutcome
    requires CanProcess(h, AbsPath(h.cwd, sourcePath), Basename(sourcePath))
  {
    ProcessSource(h, AbsPath(h.cwd, sourcePath), Basename(sourcePath))
  }

  // ---------------------------------------------------------------------------
  // The incremental-build decision

  /**
   * The compiler is skipped, and success reported, exactly when the artifact
   * exists and is strictly newer than the source; an artifact exactly as old
   * as its source is rebuilt.
   */
  lemma SkipRule(h: Host, source: Path, fileName: Name)
    requires CanProcess(h, source, fileName)
    ensures var a := ArtifactPath(h, source, fileName);
            ProcessSource(h, source, fileName).Skipped? <==> a in h.mtime && h.mtime[a] > h.mtime[source]
    ensures var a := ArtifactPath(h, source, fileName);
            a in h.mtime && h.mtime[a] == h.mtime[source] ==> ProcessSource(h, source, fileName).Compiled?
    ensures ProcessSource(h, source, fileName).Skipped? ==> Succeeded(ProcessSource(h, source, fileName))
  {
  }

  /**
   * Whenever the compiler runs it runs on the absolute source and the target
   * directory, and `process_file` returns its verdict unchanged; in
   * particular this is so whenever no artifact exists yet.
   */
  lemma RebuildReturnsCompileResult(h: Host, source: Path, fileName: Name)
    requires CanProcess(h, source, fileName)
    requires !ProcessSource(h, source, fileName).Skipped? || ArtifactPath(h, source, fileName) !in h.mtime
    ensures ProcessSource(h, source, fileName) == Compiled(CompileTex(h.tool(source, TargetDir(h, source))))
    ensures var inv := h.tool(source, TargetDir(h, source));
            Succeeded(ProcessSource(h, source, fileName)) <==> inv.Exited? && inv.returnCode == 0
  {
  }

  /**
   * Once the compiler has written the artifact with a time later than the
   * source's, processing the same source again is a skip.
   */
  lemma SecondRunSkips(h: Host, source: Path, fileName: Name, written: int)
    requires source in h.mtime && written > h.mtime[source]
    requires ArtifactPath(h, source, fileName) != source
    ensures var h' := h.(mtime := h.mtime[ArtifactPath(h, source, fileName) := written]);
            CanProcess(h', source, fileName) && ProcessSource(h', source, fileName) == Skipped
  {
    var h' := h.(mtime := h.mtime[ArtifactPath(h, source, fileName) := written]);
    assert ArtifactPath(h', source, fileName) == ArtifactPath(h, source, fileName);
  }

  // ---------------------------------------------------------------------------
  // Mirroring

  /** For a source below the root, the target directory is the source's directory moved under the output root. */
  lemma MirrorBelowRoot(h: Host, source: Path)
    requires Valid(h) && Normal(source)
    requires h.root <= Dirname(source) && !h.relpathFails(Dirname(source))
    ensures TargetDir(h, source) == OutputDir(h.root) + Dirname(source)[|h.root|..]
  {
    var dir := Dirname(source);
    RelPathBelow(dir, h.root);
    assert Normal(dir) by {
      forall i | 0 <= i < |dir| ensures NormalName(dir[i]) {
        assert dir[i] == source[i];
      }
    }
    if |dir| == |h.root| {
      ResolveDot(OutputDir(h.root));
      assert dir[|h.root|..] == [];
    } else {
      NormalSuffix(dir, |h.root|);
      ResolveNormal(OutputDir(h.root), dir[|h.root|..]);
    }
  }

  /** When the relative path cannot be computed, the target is the output root itself. */
  lemma MirrorOnRelpathFailure(h: Host, source: Path)
    requires h.relpathFails(Dirname(source))
    ensures TargetDir(h, source) == OutputDir(h.root)
  {
    ResolveDot(OutputDir(h.root));
  }

  /**
   * For a source `root/d/n` the artifact is looked for at `root/output/d/m`,
   * `m` being `n` with every `.tex` replaced by `.pdf`.
   */
  lemma ArtifactBelowRoot(h: Host, source: Path)
    requires Valid(h) && Normal(source) && |source| > 0
    requires h.root <= Dirname(source) && !h.relpathFails(Dirname(source))
    ensures ArtifactPath(h, source, Last(source))
         == OutputDir(h.root) + Dirname(source)[|h.root|..] + [PdfNameAsWritten(Last(source))]
  {
    MirrorBelowRoot(h, source);
    AsWrittenNameNormal(Last(source));
    ResolveNormal(TargetDir(h, source), [PdfNameAsWritten(Last(source))]);
  }

  /** For `root/d/stem.tex` whose stem holds no `.tex`, the artifact looked for is `root/output/d/stem.pdf`. */
  lemma ArtifactOfPlainSource(h: Host, source: Path, stem: string)
    requires Valid(h) && Normal(source) && |source| > 0
    requires h.root <= Dirname(source) && !h.relpathFails(Dirname(source))
    requires Last(source) == stem + SourceExt && !Contains(stem, SourceExt)
    ensures ArtifactPath(h, source, Last(source))
         == OutputDir(h.root) + Dirname(source)[|h.root|..] + [stem + ArtifactExt]
    ensures ArtifactPath(h, source, Last(source)) == CorrectedArtifactPath(h, source, Last(source))
  {
    ArtifactBelowRoot(h, source);
    PdfNameAgreesOnPlainSource(stem);
  }

  /** A normal file name stays a normal path component under the as-written rewrite. */
  lemma AsWrittenNameNormal(n: Name)
    requires NormalName(n)
    ensures NormalName(PdfNameAsWritten(n))
  {
    AsWrittenShape(n);
    if PdfNameAsWritten(n) != n {
      ContainsLength(n, SourceExt);
    }
    if '/' in PdfNameAsWritten(n) {
      ReplaceAllChars(n, SourceExt, ArtifactExt, '/');
    }
  }

  /** A normal file name keeps being a normal path component once its extension is changed. */
  lemma PdfNameNormal(n: Name)
    requires NormalName(n)
    ensures NormalName(PdfName(n))
  {
    if EndsWith(n, SourceExt) {
      var stem := n[..|n| - |SourceExt|];
      assert PdfName(n) == stem + ArtifactExt;
      assert PdfName(n)[|stem|..] == ArtifactExt;
      assert forall c :: c in stem ==> c in n;
      assert '/' !in ArtifactExt;
    }
  }

  /**
   * For a source below the root, neither the artifact looked for nor the
   * artifact the compiler writes is the source itself: both lie one
   * component deeper, under the output root.
   */
  lemma ArtifactIsNotSource(h: Host, source: Path)
    requires Valid(h) && Normal(source) && |source| > 0
    requires h.root <= Dirname(source) && !h.relpathFails(Dirname(source))
    ensures ArtifactPath(h, source, Last(source)) != source
    ensures CorrectedArtifactPath(h, source, Last(source)) != source
  {
    ArtifactBelowRoot(h, source);
    CorrectedArtifactBelowRoot(h, source);
  }

  /**
   * As written, two different sources in one directory, `d/s.tex.tex` and
   * `d/s.pdf.tex`, are checked against one and the same artifact path.
   */
  lemma ArtifactsCollide(h: Host, dir: Path, stem: string)
    requires !Contains(stem, SourceExt) && !Contains(stem + ArtifactExt, SourceExt)
    ensures var s1 := dir + [stem + SourceExt + SourceExt];
            var s2 := dir + [stem + ArtifactExt + SourceExt];
            s1 != s2 && ArtifactPath(h, s1, Last(s1)) == ArtifactPath(h, s2, Last(s2))
  {
    var s1 := dir + [stem + SourceExt + SourceExt];
    var s2 := dir + [stem + ArtifactExt + SourceExt];
    AsWrittenCollides(stem);
    assert Dirname(s1) == dir == Dirname(s2);
    assert s1[|dir|] != s2[|dir|];
  }

  /**
   * As written, a source whose stem holds an inner `.tex` (`a.tex` + `b.tex`)
   * is looked for under a different name than the one the compiler writes.
   */
  lemma InnerTexLooksElsewhere(h: Host, source: Path, a: string, b: string)
    requires Valid(h) && Normal(source) && |source| > 0
    requires h.root <= Dirname(source) && !h.relpathFails(Dirname(source))
    requires Last(source) == a + SourceExt + b + SourceExt
    requires !Contains(a, SourceExt) && !Contains(b, SourceExt)
    ensures ArtifactPath(h, source, Last(source)) != CorrectedArtifactPath(h, source, Last(source))
  {
    var n := Last(source);
    AsWrittenRewritesInnerTex(a, b);
    assert n == (a + SourceExt + b) + SourceExt;
    PdfNameOfSource(a + SourceExt + b);
    assert PdfNameAsWritten(n) != PdfName(n);
    MirrorBelowRoot(h, source);
    AsWrittenNameNormal(n);
    PdfNameNormal(n);
    var t := TargetDir(h, source);
    ResolveNormal(t, [PdfNameAsWritten(n)]);
    ResolveNormal(t, [PdfName(n)]);
    assert (t + [PdfNameAsWritten(n)])[|t|] != (t + [PdfName(n)])[|t|];
  }

  /**
   * When the looked-up artifact differs from the one the compiler writes and
   * does not exist, writing the compiler's artifact does not make the next run
   * skip: the source is compiled again on every run.
   */
  lemma RebuildsWhenNamesDiffer(h: Host, source: Path, fileName: Name, written: int)
    requires source in h.mtime
    requires ArtifactPath(h, source, fileName) !in h.mtime
    requires ArtifactPath(h, source, fileName) != CorrectedArtifactPath(h, source, fileName)
    ensures var h' := h.(mtime := h.mtime[CorrectedArtifactPath(h, source, fileName) := written]);
            CanProcess(h', source, fileName) && ProcessSource(h', source, fileName).Compiled?
  {
    var h' := h.(mtime := h.mtime[CorrectedArtifactPath(h, source, fileName) := written]);
    assert ArtifactPath(h', source, fileName) == ArtifactPath(h, source, fileName);
  }

  /**
   * As written, one run can see its own earlier compile: once `d/s.pdf.tex`
   * has been compiled to `d/s.pdf.pdf` with a time later than `d/s.tex.tex`,
   * processing `d/s.tex.tex` finds that artifact and skips, so it is reported
   * as a success without ever being compiled.
   */
  lemma CollisionInOneRun(h: Host, dir: Path, stem: string, written: int)
    requires !Contains(stem, SourceExt) && !Contains(stem + ArtifactExt, SourceExt)
    requires var first := dir + [stem + ArtifactExt + SourceExt];
             var second := dir + [stem + SourceExt + SourceExt];
             && second in h.mtime && written > h.mtime[second]
             && CorrectedArtifactPath(h, first, Last(first)) != second
    ensures var first := dir + [stem + ArtifactExt + SourceExt];
            var second := dir + [stem + SourceExt + SourceExt];
            var h' := h.(mtime := h.mtime[CorrectedArtifactPath(h, first, Last(first)) := written]);
            && ArtifactPath(h, second, Last(second)) == CorrectedArtifactPath(h, first, Last(first))
            && CanProcess(h', second, Last(second)) && ProcessSource(h', second, Last(second)) == Skipped
  {
    var first := dir + [stem + ArtifactExt + SourceExt];
    var second := dir + [stem + SourceExt + SourceExt];
    AsWrittenCollides(stem);
    PdfNameOfSource(stem + ArtifactExt);
    assert Dirname(first) == dir == Dirname(second);
    assert PdfName(Last(first)) == PdfNameAsWritten(Last(second));
    var h' := h.(mtime := h.mtime[CorrectedArtifactPath(h, first, Last(first)) := written]);
    assert ArtifactPath(h', second, Last(second)) == ArtifactPath(h, second, Last(second));
  }

  // ---------------------------------------------------------------------------
  // Sources outside the root

  /**
   * As written, a source outside the root is not put into the output root:
   * `relpath` succeeds with a path climbing out of it. With the root
   * `/h/u/n`, the target directory of `/h/u/o/x.tex` is `/h/u/n/o`.
   */
  lemma OutsideRootEscapes(h: Host)
    requires h.root == ["h", "u", "n"] && !h.relpathFails(["h", "u", "o"])
    ensures var source := ["h", "u", "o", "x.tex"];
            TargetDir(h, source) == ["h", "u", "n", "o"] && !(OutputDir(h.root) <= TargetDir(h, source))
  {
    var dir: Path := ["h", "u", "o"];
    assert Dirname(["h", "u", "o", "x.tex"]) == dir;
    assert CommonPrefixLength(dir, h.root) == 2 by {
      assert dir[..3] != h.root[..3] by {
        assert dir[..3][2] != h.root[..3][2];
      }
    }
    assert RelPath(dir, h.root) == ["..", "o"] by {
      assert Ups(1) == [".."];
    }
    var out := OutputDir(h.root);
    assert Resolve(out, ["..", "o"]) == Resolve(["h", "u", "n"], ["o"]);
    assert Resolve(["h", "u", "n"], ["o"]) == Resolve(["h", "u", "n", "o"], []);
    assert out[3] == "output";
  }

  /**
   * The target directory build.py's comment promises: the mirror for a
   * source below the root, and the output root itself for anything else.
   */
  function CorrectedTargetDir(h: Host, source: Path): Path {
    var dir := Dirname(source);
    if h.root <= dir && !h.relpathFails(dir) then TargetDir(h, source) else OutputDir(h.root)
  }

  /** The corrected target directory always lies in the output root, and mirrors the source below the root. */
  lemma CorrectedTargetInOutput(h: Host, source: Path)
    requires Valid(h) && Normal(source)
    ensures OutputDir(h.root) <= CorrectedTargetDir(h, source)
    ensures h.root <= Dirname(source) && !h.relpathFails(Dirname(source)) ==>
              CorrectedTargetDir(h, source) == OutputDir(h.root) + Dirname(source)[|h.root|..]
  {
    if h.root <= Dirname(source) && !h.relpathFails(Dirname(source)) {
      MirrorBelowRoot(h, source);
    }
  }

  // ---------------------------------------------------------------------------
  // The corrected artifact path

  /** For a source `root/d/n.tex` the compiler's artifact is `root/output/d/n.pdf`. */
  lemma CorrectedArtifactBelowRoot(h: Host, source: Path)
    requires Valid(h) && Normal(source) && |source| > 0
    requires h.root <= Dirname(source) && !h.relpathFails(Dirname(source))
    ensures CorrectedArtifactPath(h, source, Last(source))
         == OutputDir(h.root) + Dirname(source)[|h.root|..] + [PdfName(Last(source))]
  {
    MirrorBelowRoot(h, source);
    PdfNameNormal(Last(source));
    ResolveNormal(TargetDir(h, source), [PdfName(Last(source))]);
  }

  /** Paths ending in one component are equal when their parents and last components are. */
  lemma SplitLast(p: Path, q: Path, base: Path, d1: Path, d2: Path, x: Name, y: Name)
    requires p == base + d1 + [x] && q == base + d2 + [y] && p == q
    ensures d1 == d2 && x == y
  {
    assert |d1| == |d2|;
    assert p[|base|..|p| - 1] == d1;
    assert q[|base|..|q| - 1] == d2;
    assert p[|p| - 1] == x && q[|q| - 1] == y;
  }

  /** With only the extension changed, distinct `.tex` sources below the root have distinct artifacts. */
  lemma CorrectedArtifactsDistinct(h: Host, s1: Path, s2: Path)
    requires Valid(h)
    requires Normal(s1) && |s1| > 0 && h.root <= Dirname(s1) && !h.relpathFails(Dirname(s1))
    requires Normal(s2) && |s2| > 0 && h.root <= Dirname(s2) && !h.relpathFails(Dirname(s2))
    requires EndsWith(Last(s1), SourceExt) && EndsWith(Last(s2), SourceExt)
    requires CorrectedArtifactPath(h, s1, Last(s1)) == CorrectedArtifactPath(h, s2, Last(s2))
    ensures s1 == s2
  {
    CorrectedArtifactBelowRoot(h, s1);
    CorrectedArtifactBelowRoot(h, s2);
    var d1 := Dirname(s1)[|h.root|..];
    var d2 := Dirname(s2)[|h.root|..];
    SplitLast(CorrectedArtifactPath(h, s1, Last(s1)), CorrectedArtifactPath(h, s2, Last(s2)), OutputDir(h.root),
              d1, d2, PdfName(Last(s1)), PdfName(Last(s2)));
    PdfNameInjective(Last(s1), Last(s2));
    SameParentSameName(h.root, s1, s2);
  }

  /** Two paths below `root` with the same relative parent and the same last component are equal. */
  lemma SameParentSameName(root: Path, s1: Path, s2: Path)
    requires |s1| > 0 && |s2| > 0 && root <= Dirname(s1) && root <= Dirname(s2)
    requires Dirname(s1)[|root|..] == Dirname(s2)[|root|..] && Last(s1) == Last(s2)
    ensures s1 == s2
  {
    assert Dirname(s1) == root + Dirname(s1)[|root|..];
    assert Dirname(s2) == root + Dirname(s2)[|root|..];
    assert s1 == Dirname(s1) + [Last(s1)];
    assert s2 == Dirname(s2) + [Last(s2)];
  }
}

=== FILE: compile.dfy ===
/**
 * One invocation of the document compiler (`compile_tex` in build.py): how
 * the outcome of the external `xelatex` process is classified, and which
 * lines of its captured log are shown when it fails.
 *
 * The process itself is outside the model: an `Invocation` is what running
 * it produced (an exit status and the captured standard output, or one of
 * the two exceptions the function catches).
 */
module Compile {
  import opened Text
  import opened Seqs

  /** Lines of the log that report a TeX error start with this prefix. */
  const ErrorPrefix: string := "! "
  /** At most this many error lines are shown. */
  const MaxErrorsShown: nat := 5
  /** Without error lines, this many lines from the end of the log are shown. */
  const TailLength: nat := 10

  datatype Invocation =
    | Exited(returnCode: int, stdout: string)   // the process ran and exited
    | ToolMissing                               // FileNotFoundError: no `xelatex` on the path
    | Raised(message: string)                   // any other exception, with its message

  datatype Diagnostic =
    | NoDiagnostic
    | ErrorLines(lines: seq<string>)            // "Captured Errors:"
    | LogTail(lines: seq<string>)               // "Tail of stdout:"
    | NotInstalled
    | Unexpected(message: string)

  datatype CompileResult = CompileResult(ok: bool, diagnostic: Diagnostic)

  function Min(a: nat, b: nat): nat {
    if a <= b then a else b
  }

  predicate IsErrorLine(line: string) {
    StartsWith(line, ErrorPrefix)
  }

  /** The log as `stdout.split('\n')`. */
  function LogLines(stdout: string): seq<string> {
    Split(stdout, '\n')
  }

  /**
   * The error lines of a log, in their original order. Every occurrence is
   * kept: an error line repeated in the log is repeated in the result.
   */
  function ErrorLinesIn(lines: seq<string>): (errs: seq<string>)
    ensures |errs| <= |lines|
    ensures forall i :: 0 <= i < |errs| ==> IsErrorLine(errs[i])
    ensures forall x {:trigger multiset(errs)[x]} :: multiset(errs)[x] == if IsErrorLine(x) then multiset(lines)[x] else 0
    decreases |lines|
  {
    if |lines| == 0 then []
    else
      assert lines == [lines[0]] + lines[1..];
      (if IsErrorLine(lines[0]) then [lines[0]] else []) + ErrorLinesIn(lines[1..])
  }

  /** What a failed run reports: its first error lines, or else the end of its log. */
  function FailureSummary(stdout: string): (d: Diagnostic)
    ensures d.ErrorLines? || d.LogTail?
    ensures d.ErrorLines? ==>
              && 0 < |d.lines| <= MaxErrorsShown
              && |d.lines| == Min(MaxErrorsShown, |ErrorLinesIn(LogLines(stdout))|)
              && forall i :: 0 <= i < |d.lines| ==> IsErrorLine(d.lines[i])
    ensures d.LogTail? ==>
              && |d.lines| == Min(TailLength, |LogLines(stdout)|)
              && d.lines == LogLines(stdout)[|LogLines(stdout)| - |d.lines|..]
  {
    var lines := LogLines(stdout);
    var errors := ErrorLinesIn(lines);
    if |errors| > 0 then ErrorLines(errors[..Min(MaxErrorsShown, |errors|)])
    else LogTail(lines[|lines| - Min(TailLength, |lines|)..])
  }

  /**
   * `compile_tex`: the build succeeds exactly when the process exits with
   * status 0; every other outcome, including the two caught exceptions, is a
   * failure that carries its own diagnostic and is never propagated.
   */
  function CompileTex(inv: Invocation): (r: CompileResult)
    ensures r.ok <==> inv.Exited? && inv.returnCode == 0
    ensures r.ok ==> r.diagnostic == NoDiagnostic
    ensures inv.Exited? && inv.returnCode != 0 ==> r.diagnostic == FailureSummary(inv.stdout)
    ensures inv.ToolMissing? ==> r.diagnostic == NotInstalled
    ensures inv.Raised? ==> r.diagnostic == Unexpected(inv.message)
  {
    match inv
    case Exited(code, out) =>
      if code == 0 then CompileResult(true, NoDiagnostic)
      else CompileResult(false, FailureSummary(out))
    case ToolMissing => CompileResult(false, NotInstalled)
    case Raised(msg) => CompileResult(false, Unexpected(msg))
  }

  // ---------------------------------------------------------------------------
  // The error filter

  /** A line is kept by the filter exactly when it is in the log and is an error line. */
  lemma {:induction false} ErrorLinesMembership(lines: seq<string>, x: string)
    ensures x in ErrorLinesIn(lines) <==> x in lines && IsErrorLine(x)
    decreases |lines|
  {
    if |lines| > 0 {
      ErrorLinesMembership(lines[1..], x);
      assert lines == [lines[0]] + lines[1..];
    }
  }

  /** The filter keeps lines in their original order. */
  lemma {:induction false} ErrorLinesSubsequence(lines: seq<string>)
    ensures IsSubsequence(ErrorLinesIn(lines), lines)
    decreases |lines|
  {
    if |lines| > 0 {
      ErrorLinesSubsequence(lines[1..]);
      var rest := ErrorLinesIn(lines[1..]);
      if IsErrorLine(lines[0]) {
        assert ErrorLinesIn(lines) == [lines[0]] + rest;
        assert ([lines[0]] + rest)[1..] == rest;
      } else {
        assert ErrorLinesIn(lines) == rest;
      }
    }
  }

  /** A prefix of a subsequence is again a subsequence. */
  lemma {:induction false} SubsequencePrefix<T>(a: seq<T>, b: seq<T>, k: nat)
    requires k <= |a| && IsSubsequence(a, b)
    ensures IsSubsequence(a[..k], b)
    decreases |b|
  {
    if k > 0 {
      if a[0] == b[0] && IsSubsequence(a[1..], b[1..]) {
        SubsequencePrefix(a[1..], b[1..], k - 1);
        assert a[..k][1..] == a[1..][..k - 1];
      } else {
        SubsequencePrefix(a, b[1..], k);
      }
    }
  }

  /** The first `k` error lines are all the error lines of some prefix of the log. */
  lemma {:induction false} FirstErrorsComeFromAPrefix(lines: seq<string>, k: nat)
    requires k <= |ErrorLinesIn(lines)|
    ensures exists j :: 0 <= j <= |lines| && ErrorLinesIn(lines[..j]) == ErrorLinesIn(lines)[..k]
    decreases |lines|
  {
    if k == 0 {
      assert ErrorLinesIn(lines[..0]) == ErrorLinesIn(lines)[..0];
    } else {
      var rest := lines[1..];
      var errs := ErrorLinesIn(lines);
      var k' := if IsErrorLine(lines[0]) then k - 1 else k;
      FirstErrorsComeFromAPrefix(rest, k');
      var j' :| 0 <= j' <= |rest| && ErrorLinesIn(rest[..j']) == ErrorLinesIn(rest)[..k'];
      var j := j' + 1;
      assert lines[..j][0] == lines[0];
      assert lines[..j][1..] == rest[..j'];
      if IsErrorLine(lines[0]) {
        assert errs == [lines[0]] + ErrorLinesIn(rest);
        assert errs[..k] == [lines[0]] + ErrorLinesIn(rest)[..k - 1];
      }
      assert ErrorLinesIn(lines[..j]) == errs[..k];
    }
  }

  // ---------------------------------------------------------------------------
  // What a failed build shows

  /**
   * The error lines shown are the first `min(5, k)` of the log's `k` error
   * lines, in log order: all error lines of some prefix of the log, and all of
   * the log's error lines when it has no more than five.
   */
  lemma ShownErrorsAreTheFirst(stdout: string)
    requires FailureSummary(stdout).ErrorLines?
    ensures |FailureSummary(stdout).lines| == Min(MaxErrorsShown, |ErrorLinesIn(LogLines(stdout))|)
    ensures forall i :: 0 <= i < |FailureSummary(stdout).lines| ==>
              FailureSummary(stdout).lines[i] == ErrorLinesIn(LogLines(stdout))[i]
    ensures IsSubsequence(FailureSummary(stdout).lines, LogLines(stdout))
    ensures exists j :: 0 <= j <= |LogLines(stdout)| &&
              FailureSummary(stdout).lines == ErrorLinesIn(LogLines(stdout)[..j])
    ensures |ErrorLinesIn(LogLines(stdout))| <= MaxErrorsShown ==>
              forall x :: x in LogLines(stdout) && IsErrorLine(x) ==> x in FailureSummary(stdout).lines
  {
    var lines := LogLines(stdout);
    var errors := ErrorLinesIn(lines);
    var k := Min(MaxErrorsShown, |errors|);
    ErrorLinesSubsequence(lines);
    SubsequencePrefix(errors, lines, k);
    FirstErrorsComeFromAPrefix(lines, k);
    forall x | x in lines && IsErrorLine(x) ensures x in errors {
      ErrorLinesMembership(lines, x);
    }
    if |errors| <= MaxErrorsShown {
      assert errors[..k] == errors;
    }
  }

  /**
   * The tail is shown only when the log has no error line, it has
   * `min(10, n)` lines, and printed joined by newlines it is exactly the end
   * of the captured output.
   */
  lemma ShownTailEndsTheLog(stdout: string)
    requires FailureSummary(stdout).LogTail?
    ensures forall x :: x in LogLines(stdout) ==> !IsErrorLine(x)
    ensures |FailureSummary(stdout).lines| > 0
    ensures EndsWith(stdout, Join(FailureSummary(stdout).lines, '\n'))
  {
    var lines := LogLines(stdout);
    var tail := FailureSummary(stdout).lines;
    forall x | x in lines ensures !IsErrorLine(x) {
      ErrorLinesMembership(lines, x);
    }
    var m := |lines| - |tail|;
    JoinSplit(stdout, '\n');
    if m > 0 {
      assert lines == lines[..m] + tail;
      JoinAppend(lines[..m], tail, '\n');
      var before := Join(lines[..m], '\n') + ['\n'];
      assert stdout == before + Join(tail, '\n');
      assert stdout[|stdout| - |Join(tail, '\n')|..] == Join(tail, '\n');
    } else {
      assert tail == lines;
    }
  }
}

=== FILE: driver.dfy ===
/**
 * The entry point of build.py (`main`): with an argument, build that one file
 * and turn its result into the exit status; without one, walk the whole tree
 * below the root and count the `.tex` files found and the ones processed
 * successfully.
 */
module Driver {
  import opened Seqs
  import opened Text
  import opened Paths
  import opened Naming
  import opened Build
  import opened Walk

  datatype Report =
    | MissingTarget(target: string)                 // "Error: File not found", exit status 1
    | SingleFile(target: string, outcome: FileOutcome)
    | FullTree(found: nat, succeeded: nat)         // "Successfully processed: succeeded/found"

  /** The process exit status of a run. */
  function ExitStatus(r: Report): nat {
    match r
    case MissingTarget(_) => 1
    case SingleFile(_, o) => if Succeeded(o) then 0 else 1
    case FullTree(_, _) => 0
  }

  /** The full path `os.path.join(root, file)` of each `.tex` file listed in one directory, in listing order. */
  function SourcesOf(dir: Path, files: seq<Name>): seq<Path>
    decreases |files|
  {
    if |files| == 0 then []
    else
      var f := files[|files| - 1];
      SourcesOf(dir, files[..|files| - 1]) + (if EndsWith(f, SourceExt) then [dir + [f]] else [])
  }

  /** The `.tex` files of the whole walk, in the order the loop meets them. */
  function SourcesIn(entries: seq<Entry>): seq<Path>
    decreases |entries|
  {
    if |entries| == 0 then []
    else
      var e := entries[|entries| - 1];
      SourcesIn(entries[..|entries| - 1]) + SourcesOf(e.dir, e.files)
  }

  /** `process_file` can be called on this path without `getmtime` raising. */
  predicate Processable(h: Host, src: Path) {
    CanProcess(h, AbsPath(h.cwd, PathString(src)), Basename(PathString(src)))
  }

  /** What `process_file(os.path.join(root, file))` returns for a listed source. */
  function Outcome(h: Host, src: Path): FileOutcome
    requires Processable(h, src)
  {
    ProcessFile(h, PathString(src))
  }

  /** Whether `process_file` reports success for a listed source (false where it cannot be called). */
  predicate SourceSucceeds(h: Host, src: Path) {
    Processable(h, src) && Succeeded(Outcome(h, src))
  }

  /** `SourceSucceeds` as the per-file verdict the counting loop consults. */
  function Verdict(h: Host): Path -> bool {
    s => SourceSucceeds(h, s)
  }

  /** How many of `srcs` the per-file verdict `succeeds` accepts. */
  function CountOk(succeeds: Path -> bool, srcs: seq<Path>): (n: nat)
    ensures n <= |srcs|
    decreases |srcs|
  {
    if |srcs| == 0 then 0
    else CountOk(succeeds, srcs[..|srcs| - 1]) + (if succeeds(srcs[|srcs| - 1]) then 1 else 0)
  }

  // ---------------------------------------------------------------------------
  // The counting loop

  /** The count is the number of positions whose path the verdict accepts. */
  lemma {:induction false} CountOkCounts(succeeds: Path -> bool, srcs: seq<Path>)
    ensures CountOk(succeeds, srcs) == |set i | 0 <= i < |srcs| && succeeds(srcs[i])|
    decreases |srcs|
  {
    if |srcs| > 0 {
      var n := |srcs| - 1;
      var init := srcs[..n];
      CountOkCounts(succeeds, init);
      var before := set i | 0 <= i < n && succeeds(init[i]);
      var now := set i | 0 <= i < |srcs| && succeeds(srcs[i]);
      assert before == set i | 0 <= i < n && succeeds(srcs[i]);
      if succeeds(srcs[n]) {
        assert now == before + {n};
      } else {
        assert now == before;
      }
    }
  }

  lemma {:induction false} CountAppend(succeeds: Path -> bool, a: seq<Path>, b: seq<Path>)
    ensures CountOk(succeeds, a + b) == CountOk(succeeds, a) + CountOk(succeeds, b)
    decreases |b|
  {
    if |b| > 0 {
      var b' := b[..|b| - 1];
      assert (a + b)[..|a + b| - 1] == a + b';
      CountAppend(succeeds, a, b');
    } else {
      assert a + b == a;
    }
  }

  /**
   * The inner loop over one directory's files: its `.tex` files are counted,
   * and those for which `succeeds` (the verdict of `process_file`) holds.
   */
  method CountFiles(succeeds: Path -> bool, dir: Path, files: seq<Name>) returns (found: nat, succeeded: nat)
    ensures found == |SourcesOf(dir, files)|
    ensures succeeded == CountOk(succeeds, SourcesOf(dir, files))
  {
    found, succeeded := 0, 0;
    var j := 0;
    while j < |files|
      invariant 0 <= j <= |files|
      invariant found == |SourcesOf(dir, files[..j])|
      invariant succeeded == CountOk(succeeds, SourcesOf(dir, files[..j]))
    {
      var f := files[j];
      ghost var here := if EndsWith(f, SourceExt) then [dir + [f]] else [];
      assert files[..j + 1][..j] == files[..j];
      assert SourcesOf(dir, files[..j + 1]) == SourcesOf(dir, files[..j]) + here;
      CountAppend(succeeds, SourcesOf(dir, files[..j]), here);
      if EndsWith(f, SourceExt) {
        found := found + 1;
        assert here[..0] == [];
        if succeeds(dir + [f]) {
          succeeded := succeeded + 1;
        }
      }
      j := j + 1;
    }
    assert files[..j] == files;
  }

  /**
   * The full-build loop over the walked directories: every `.tex` file listed
   * is counted, and counted as a success exactly when the per-file verdict
   * `succeeds` holds for it, so there are never more successes than files.
   */
  method CountEntries(succeeds: Path -> bool, entries: seq<Entry>) returns (found: nat, succeeded: nat)
    ensures found == |SourcesIn(entries)|
    ensures succeeded == CountOk(succeeds, SourcesIn(entries))
    ensures succeeded <= found
  {
    found, succeeded := 0, 0;
    var i := 0;
    while i < |entries|
      invariant 0 <= i <= |entries|
      invariant found == |SourcesIn(entries[..i])|
      invariant succeeded == CountOk(succeeds, SourcesIn(entries[..i]))
    {
      var e := entries[i];
      assert entries[..i + 1][..i] == entries[..i];
      assert SourcesIn(entries[..i + 1]) == SourcesIn(entries[..i]) + SourcesOf(e.dir, e.files);
      CountAppend(succeeds, SourcesIn(entries[..i]), SourcesOf(e.dir, e.files));
      var n, k := CountFiles(succeeds, e.dir, e.files);
      found, succeeded := found + n, succeeded + k;
      i := i + 1;
    }
    assert entries[..i] == entries;
  }

  // ---------------------------------------------------------------------------
  // The whole run

  /**
   * `os.path.exists(s)` for a path argument as typed: the empty string never
   * exists; otherwise the path, made absolute, must be in the snapshot.
   */
  predicate TargetExists(h: Host, s: string) {
    s != "" && AbsPath(h.cwd, s) in h.mtime
  }

  /**
   * `main`. `args` are the command-line arguments after the script name (only
   * the first is used) and `tree` is the listing of the root directory.
   */
  method Run(h: Host, args: seq<string>, tree: Tree) returns (r: Report)
    requires |args| == 0 ==>
               forall s :: s in SourcesIn(Walk.WalkFrom(h.root, tree, OutputDir(h.root))) ==> Processable(h, s)
    ensures |args| > 0 ==> r.MissingTarget? || r.SingleFile?
    ensures |args| > 0 && !TargetExists(h, args[0]) ==> r == MissingTarget(args[0])
    ensures |args| > 0 && TargetExists(h, args[0]) ==>
              r == SingleFile(args[0], ProcessFile(h, args[0]))
    ensures |args| > 0 ==>
              (ExitStatus(r) == 0 <==> TargetExists(h, args[0]) && Succeeded(ProcessFile(h, args[0])))
    ensures |args| == 0 ==>
              var srcs := SourcesIn(Walk.WalkFrom(h.root, tree, OutputDir(h.root)));
              r == FullTree(|srcs|, CountOk(Verdict(h), srcs)) && ExitStatus(r) == 0
  {
    if |args| > 0 {
      var target := args[0];
      if !TargetExists(h, target) {
        return MissingTarget(target);
      }
      return SingleFile(target, ProcessFile(h, target));
    }
    var entries := Walk.WalkFrom(h.root, tree, OutputDir(h.root));
    var found, succeeded := CountEntries(Verdict(h), entries);
    return FullTree(found, succeeded);
  }

  // ---------------------------------------------------------------------------
  // Properties of a run

  /** A path is one of the sources of a directory listing exactly when it is a `.tex` file listed there. */
  lemma {:induction false} SourcesOfMembership(dir: Path, files: seq<Name>, s: Path)
    ensures s in SourcesOf(dir, files) <==>
              exists j :: 0 <= j < |files| && EndsWith(files[j], SourceExt) && s == dir + [files[j]]
    decreases |files|
  {
    if |files| > 0 {
      var init := files[..|files| - 1];
      SourcesOfMembership(dir, init, s);
      if exists j :: 0 <= j < |init| && EndsWith(init[j], SourceExt) && s == dir + [init[j]] {
        var j :| 0 <= j < |init| && EndsWith(init[j], SourceExt) && s == dir + [init[j]];
        assert files[j] == init[j];
      }
      if exists j :: 0 <= j < |files| && EndsWith(files[j], SourceExt) && s == dir + [files[j]] {
        var j :| 0 <= j < |files| && EndsWith(files[j], SourceExt) && s == dir + [files[j]];
        if j < |init| {
          assert init[j] == files[j];
        }
      }
    }
  }

  /** A path is counted by the full build exactly when it is a `.tex` file listed in some walked directory. */
  lemma {:induction false} SourcesInMembership(entries: seq<Entry>, s: Path)
    ensures s in SourcesIn(entries) <==>
              exists i :: 0 <= i < |entries| && s in SourcesOf(entries[i].dir, entries[i].files)
    decreases |entries|
  {
    if |entries| > 0 {
      var init := entries[..|entries| - 1];
      SourcesInMembership(init, s);
      if exists i :: 0 <= i < |init| && s in SourcesOf(init[i].dir, init[i].files) {
        var i :| 0 <= i < |init| && s in SourcesOf(init[i].dir, init[i].files);
        assert entries[i] == init[i];
      }
      if exists i :: 0 <= i < |entries| && s in SourcesOf(entries[i].dir, entries[i].files) {
        var i :| 0 <= i < |entries| && s in SourcesOf(entries[i].dir, entries[i].files);
        if i < |init| {
          assert init[i] == entries[i];
        }
      }
    }
  }

  /** Each counted path is a `.tex` file listed in one of the walked directories. */
  lemma ListedSource(entries: seq<Entry>, s: Path) returns (e: Entry, f: Name)
    requires s in SourcesIn(entries)
    ensures e in entries && f in e.files && EndsWith(f, SourceExt) && s == e.dir + [f]
  {
    SourcesInMembership(entries, s);
    var i :| 0 <= i < |entries| && s in SourcesOf(entries[i].dir, entries[i].files);
    e := entries[i];
    SourcesOfMembership(e.dir, e.files, s);
    var j :| 0 <= j < |e.files| && EndsWith(e.files[j], SourceExt) && s == e.dir + [e.files[j]];
    f := e.files[j];
  }

  /** A `.tex` file is never the output directory's name. */
  lemma TexNameIsNotOutput(f: Name)
    requires EndsWith(f, SourceExt)
    ensures f != "output"
  {
    assert f[|f| - |SourceExt|..] == SourceExt;
    assert f[|f| - 1] == SourceExt[3] == 'x';
    assert "output"[5] == 't';
  }

  /** A file other than `output` directly in a directory outside `root/output` is outside it too. */
  lemma OutsideOutput(root: Path, d: Path, f: Name)
    requires root <= d && !(OutputDir(root) <= d) && f != "output"
    ensures !(OutputDir(root) <= d + [f])
  {
    var o := OutputDir(root);
    if |d| == |root| {
      assert (d + [f])[|root|] == f;
      assert o[|root|] == "output";
    } else {
      assert |o| <= |d|;
      assert (d + [f])[..|o|] == d[..|o|];
    }
  }

  /** Every file the full build processes from the root is named `*.tex`. */
  lemma TreeSourcesAreTex(root: Path, tree: Tree, s: Path)
    requires s in SourcesIn(Walk.WalkFrom(root, tree, OutputDir(root)))
    ensures |s| > 0 && EndsWith(Last(s), SourceExt)
  {
    var e, f := ListedSource(Walk.WalkFrom(root, tree, OutputDir(root)), s);
    assert Last(s) == f;
  }

  /** Every file the full build processes lies below the root and not inside a `.git` directory. */
  lemma TreeSourcesSkipGit(root: Path, tree: Tree, s: Path)
    requires WellFormed(tree)
    requires s in SourcesIn(Walk.WalkFrom(root, tree, OutputDir(root)))
    ensures root <= Dirname(s) && ".git" !in Dirname(s)[|root|..]
  {
    WalkSkipsGit(root, tree, OutputDir(root));
    SourcesSkipGit(root, Walk.WalkFrom(root, tree, OutputDir(root)), s);
  }

  /** No file the full build processes lies inside the output root. */
  lemma TreeSourcesOutsideOutput(root: Path, tree: Tree, s: Path)
    requires WellFormed(tree)
    requires s in SourcesIn(Walk.WalkFrom(root, tree, OutputDir(root)))
    ensures !(OutputDir(root) <= s)
  {
    WalkBelow(root, tree, OutputDir(root));
    WalkSkipsOutput(root, tree, OutputDir(root));
    SourcesOutsideOutput(root, Walk.WalkFrom(root, tree, OutputDir(root)), s);
  }

  /** A source listed in a directory that avoids `.git` below the root avoids it too. */
  lemma SourcesSkipGit(root: Path, entries: seq<Entry>, s: Path)
    requires forall e :: e in entries ==> root <= e.dir && ".git" !in e.dir[|root|..]
    requires s in SourcesIn(entries)
    ensures root <= Dirname(s) && ".git" !in Dirname(s)[|root|..]
  {
    var e, f := ListedSource(entries, s);
    assert Dirname(s) == e.dir;
  }

  /** A source listed in a directory below the root and outside the output root is outside it too. */
  lemma SourcesOutsideOutput(root: Path, entries: seq<Entry>, s: Path)
    requires forall e :: e in entries ==> root <= e.dir
    requires forall e :: e in entries ==> !(OutputDir(root) <= e.dir)
    requires s in SourcesIn(entries)
    ensures !(OutputDir(root) <= s)
  {
    var e, f := ListedSource(entries, s);
    TexNameIsNotOutput(f);
    OutsideOutput(root, e.dir, f);
  }

  /**
   * For a tree of real names below a normalised root whose listed files all
   * exist, the full build can process every source, and processing it is
   * `process_file` on that very path and name.
   */
  lemma TreeSourcesProcessable(h: Host, tree: Tree, s: Path)
    requires Valid(h) && NormalTree(tree)
    requires s in SourcesIn(Walk.WalkFrom(h.root, tree, OutputDir(h.root)))
    requires s in h.mtime
    ensures Processable(h, s) && |s| > 0 && CanProcess(h, s, Last(s))
    ensures Outcome(h, s) == ProcessSource(h, s, Last(s))
  {
    var e, f := ListedSource(Walk.WalkFrom(h.root, tree, OutputDir(h.root)), s);
    WalkNormal(h.root, tree, OutputDir(h.root));
    assert Normal(s) by {
      forall k | 0 <= k < |s| ensures NormalName(s[k]) {
        if k < |e.dir| { assert s[k] == e.dir[k]; } else { assert s[k] == f; }
      }
    }
    PathStringRoundTrip(h.cwd, s);
  }
}

=== FILE: naming.dfy ===
/**
 * The name of the artifact built from a source file (build.py, line 79).
 *
 * As written the script derives it with `file_name.replace('.tex', '.pdf')`,
 * which rewrites every occurrence of `.tex`, not only the extension, while the
 * compiler names its output after the source with only the extension
 * changed. `PdfNameAsWritten` is the expression as written, with the
 * properties it does have, and is the name `process_file` looks for;
 * `PdfName` changes only the extension, the name the compiler writes. The two
 * agree on every name whose only `.tex` is its extension.
 */
module Naming {
  import opened Text

  const SourceExt: string := ".tex"
  const ArtifactExt: string := ".pdf"

  // ---------------------------------------------------------------------------
  // As written: every occurrence is replaced

  function PdfNameAsWritten(fileName: string): string {
    ReplaceAll(fileName, SourceExt, ArtifactExt)
  }

  /** The rewrite keeps the length, and changes a name exactly when `.tex` occurs in it. */
  lemma AsWrittenShape(fileName: string)
    ensures |PdfNameAsWritten(fileName)| == |fileName|
    ensures PdfNameAsWritten(fileName) == fileName <==> !Contains(fileName, SourceExt)
  {
    ReplaceAllUnchangedIff(fileName, SourceExt, ArtifactExt);
  }

  /** A name ending in `.tex` gives a name ending in `.pdf`. */
  lemma AsWrittenEndsInPdf(fileName: string)
    requires EndsWith(fileName, SourceExt)
    ensures EndsWith(PdfNameAsWritten(fileName), ArtifactExt)
  {
    assert SourceExt[1..] == "tex";
    ReplaceAllKeepsSuffix(fileName, SourceExt, ArtifactExt);
  }

  /** Replacing `.pdf` back by `.tex` recovers every name that did not already contain `.pdf`. */
  lemma AsWrittenReversible(fileName: string)
    requires !Contains(fileName, ArtifactExt)
    ensures ReplaceAll(PdfNameAsWritten(fileName), ArtifactExt, SourceExt) == fileName
  {
    assert ArtifactExt[1..] == "pdf";
    ReplaceAllInverse(fileName, SourceExt, ArtifactExt);
  }

  /**
   * An inner `.tex` is rewritten too: `a.tex` + `b.tex` (for instance
   * `ch1.textbook.tex`, with `a` = `ch1` and `b` = `tbook`) becomes
   * `a.pdf` + `b.pdf` (`ch1.pdftbook.pdf`), not `a.tex` + `b.pdf`
   * (`ch1.textbook.pdf`).
   */
  lemma AsWrittenRewritesInnerTex(a: string, b: string)
    requires !Contains(a, SourceExt) && !Contains(b, SourceExt)
    ensures PdfNameAsWritten(a + SourceExt + b + SourceExt) == a + ArtifactExt + b + ArtifactExt
    ensures PdfNameAsWritten(a + SourceExt + b + SourceExt) != a + SourceExt + b + ArtifactExt
  {
    assert SourceExt[1..] == "tex";
    ReplaceAllAfterClean(b, "", SourceExt, ArtifactExt);
    assert b + SourceExt + "" == b + SourceExt;
    ReplaceAllAfterClean(a, b + SourceExt, SourceExt, ArtifactExt);
    assert a + SourceExt + (b + SourceExt) == a + SourceExt + b + SourceExt;
    var r := a + ArtifactExt + b + ArtifactExt;
    var w := a + SourceExt + b + ArtifactExt;
    assert r[|a| + 1] == 'p' && w[|a| + 1] == 't';
  }

  /**
   * Two different sources in one directory, `s.tex.tex` and `s.pdf.tex` (for
   * instance with `s` = `a`), are given the same artifact name `s.pdf.pdf`.
   */
  lemma AsWrittenCollides(stem: string)
    requires !Contains(stem, SourceExt) && !Contains(stem + ArtifactExt, SourceExt)
    ensures stem + SourceExt + SourceExt != stem + ArtifactExt + SourceExt
    ensures PdfNameAsWritten(stem + SourceExt + SourceExt)
         == PdfNameAsWritten(stem + ArtifactExt + SourceExt)
         == stem + ArtifactExt + ArtifactExt
  {
    assert SourceExt[1..] == "tex";
    ContainsFirstChar("", SourceExt);
    ReplaceAllAfterClean("", "", SourceExt, ArtifactExt);
    assert "" + SourceExt + "" == SourceExt;
    ReplaceAllAfterClean(stem, SourceExt, SourceExt, ArtifactExt);
    ReplaceAllAfterClean(stem + ArtifactExt, "", SourceExt, ArtifactExt);
    assert stem + ArtifactExt + SourceExt + "" == stem + ArtifactExt + SourceExt;
    assert stem + ArtifactExt + ("" + ArtifactExt + "") == stem + ArtifactExt + ArtifactExt;
    var x := stem + SourceExt + SourceExt;
    var y := stem + ArtifactExt + SourceExt;
    assert x[|stem| + 1] == 't' && y[|stem| + 1] == 'p';
  }

  // ---------------------------------------------------------------------------
  // Corrected: only the extension is replaced

  function PdfName(fileName: string): string {
    if EndsWith(fileName, SourceExt) then fileName[..|fileName| - |SourceExt|] + ArtifactExt
    else fileName
  }

  /** The source name an artifact name was derived from. */
  function SourceName(pdfName: string): string {
    if EndsWith(pdfName, ArtifactExt) then pdfName[..|pdfName| - |ArtifactExt|] + SourceExt
    else pdfName
  }

  /** The artifact of `stem.tex` is `stem.pdf`, for every stem. */
  lemma PdfNameOfSource(stem: string)
    ensures PdfName(stem + SourceExt) == stem + ArtifactExt
  {
    var n := stem + SourceExt;
    assert n[|n| - |SourceExt|..] == SourceExt;
    assert n[..|n| - |SourceExt|] == stem;
  }

  /** A source name is recovered from its artifact name, so distinct sources have distinct artifacts. */
  lemma PdfNameReversible(fileName: string)
    requires EndsWith(fileName, SourceExt)
    ensures SourceName(PdfName(fileName)) == fileName
  {
    var stem := fileName[..|fileName| - |SourceExt|];
    var p := PdfName(fileName);
    assert p == stem + ArtifactExt;
    assert p[|p| - |ArtifactExt|..] == ArtifactExt;
    assert p[..|p| - |ArtifactExt|] == stem;
    assert fileName == stem + SourceExt;
  }

  lemma PdfNameInjective(a: string, b: string)
    requires EndsWith(a, SourceExt) && EndsWith(b, SourceExt)
    requires PdfName(a) == PdfName(b)
    ensures a == b
  {
    PdfNameReversible(a);
    PdfNameReversible(b);
  }

  /** A name that does not end in `.tex` is kept, and otherwise the name ends in `.pdf` and keeps its length. */
  lemma PdfNameShape(fileName: string)
    ensures |PdfName(fileName)| == |fileName|
    ensures !EndsWith(fileName, SourceExt) ==> PdfName(fileName) == fileName
    ensures EndsWith(fileName, SourceExt) ==> EndsWith(PdfName(fileName), ArtifactExt)
  {
    if EndsWith(fileName, SourceExt) {
      var p := PdfName(fileName);
      assert p[|p| - |ArtifactExt|..] == ArtifactExt;
    }
  }

  /** For `stem.tex` with no `.tex` inside the stem, the corrected and the as-written name agree. */
  lemma PdfNameAgreesOnPlainSource(stem: string)
    requires !Contains(stem, SourceExt)
    ensures PdfNameAsWritten(stem + SourceExt) == PdfName(stem + SourceExt) == stem + ArtifactExt
  {
    assert SourceExt[1..] == "tex";
    assert stem + SourceExt + "" == stem + SourceExt;
    ReplaceAllAfterClean(stem, "", SourceExt, ArtifactExt);
    PdfNameOfSource(stem);
  }

  /** A name without any `.tex` is kept by both. */
  lemma PdfNameAgreesOnOtherName(fileName: string)
    requires !Contains(fileName, SourceExt)
    ensures PdfNameAsWritten(fileName) == PdfName(fileName) == fileName
  {
    ReplaceAllNoMatch(fileName, SourceExt, ArtifactExt);
    if EndsWith(fileName, SourceExt) {
      var k := |fileName| - |SourceExt|;
      assert StartsWith(fileName[k..], SourceExt);
      ContainsSuffix(fileName, SourceExt, k);
      assert false;
    }
  }
}

=== FILE: paths.dfy ===
/**
 * POSIX path handling as the build script uses it: an absolute path is the
 * sequence of its component names (`/home/u/notes` is `["home", "u", "notes"]`,
 * `/` is `[]`), and a path string typed by the user is split on `/` and
 * normalised the way `os.path.abspath` does.
 */
module Paths {
  import opened Text
  import opened Seqs

  type Name = string
  type Path = seq<Name>

  /** A component that can appear in a normalised path. */
  predicate NormalName(n: Name) {
    n != "" && n != "." && n != ".." && '/' !in n
  }

  /** A normalised absolute path: no empty, `.` or `..` components. */
  predicate Normal(p: Path) {
    forall i :: 0 <= i < |p| ==> NormalName(p[i])
  }

  /**
   * Lexical resolution of `parts` against `base` (`os.path.normpath` of the
   * joined path): empty and `.` components are dropped, `..` removes the last
   * component, and `..` at `/` stays at `/`.
   */
  function Resolve(base: Path, parts: seq<Name>): Path
    decreases |parts|
  {
    if |parts| == 0 then base
    else if parts[0] == "" || parts[0] == "." then Resolve(base, parts[1..])
    else if parts[0] == ".." then Resolve(if |base| == 0 then [] else base[..|base| - 1], parts[1..])
    else Resolve(base + [parts[0]], parts[1..])
  }

  /** `os.path.abspath(s)` with the current directory `cwd`. */
  function AbsPath(cwd: Path, s: string): Path {
    Resolve(if |s| > 0 && s[0] == '/' then [] else cwd, Split(s, '/'))
  }

  /** `os.path.basename(s)`: the text after the last `/`. */
  function Basename(s: string): Name {
    Last(Split(s, '/'))
  }

  /** `os.path.dirname` of a normalised absolute path; the parent of `/` is `/`. */
  function Dirname(p: Path): Path {
    if |p| == 0 then [] else p[..|p| - 1]
  }

  /** The string of an absolute path, as `os.path.join` builds it: `/` or `/a/b`. */
  function PathString(p: Path): string {
    if |p| == 0 then "/" else "/" + Join(p, '/')
  }

  /** Length of the longest common prefix (`os.path.commonprefix` on component lists). */
  function CommonPrefixLength(a: Path, b: Path): (k: nat)
    ensures k <= |a| && k <= |b|
    ensures a[..k] == b[..k]
    ensures k < |a| && k < |b| ==> a[k] != b[k]
    decreases |a|
  {
    if |a| == 0 || |b| == 0 || a[0] != b[0] then 0
    else
      var k := 1 + CommonPrefixLength(a[1..], b[1..]);
      assert a[..k] == [a[0]] + a[1..][..k - 1];
      assert b[..k] == [b[0]] + b[1..][..k - 1];
      k
  }

  function Ups(n: nat): (r: seq<Name>)
    ensures |r| == n && forall i :: 0 <= i < n ==> r[i] == ".."
  {
    seq(n, _ => "..")
  }

  /**
   * `os.path.relpath(path, start)` for normalised absolute paths: climb from
   * `start` to the common ancestor, then descend to `path`; `["."]` when the
   * two are the same directory.
   */
  function RelPath(path: Path, start: Path): seq<Name> {
    var k := CommonPrefixLength(path, start);
    var rel := Ups(|start| - k) + path[k..];
    if |rel| == 0 then ["."] else rel
  }

  // ---------------------------------------------------------------------------
  // Resolution

  /** Normal components are appended as they are. */
  lemma {:induction false} ResolveNormal(base: Path, parts: seq<Name>)
    requires Normal(parts)
    ensures Resolve(base, parts) == base + parts
    decreases |parts|
  {
    if |parts| > 0 {
      ResolveNormal(base + [parts[0]], parts[1..]);
      assert parts == [parts[0]] + parts[1..];
    }
  }

  /** `.` is the directory itself. */
  lemma ResolveDot(base: Path)
    ensures Resolve(base, ["."]) == base
  {
    assert ["."][1..] == [];
  }

  /** Resolving a concatenation resolves the two halves one after the other. */
  lemma {:induction false} ResolveAppend(base: Path, a: seq<Name>, b: seq<Name>)
    ensures Resolve(base, a + b) == Resolve(Resolve(base, a), b)
    decreases |a|
  {
    if |a| > 0 {
      assert (a + b)[0] == a[0];
      assert (a + b)[1..] == a[1..] + b;
      var next := if a[0] == "" || a[0] == "." then base
                  else if a[0] == ".." then (if |base| == 0 then [] else base[..|base| - 1])
                  else base + [a[0]];
      ResolveAppend(next, a[1..], b);
    } else {
      assert a + b == b;
    }
  }

  /** `n` parent steps remove the last `n` components. */
  lemma {:induction false} ResolveUps(base: Path, n: nat)
    requires n <= |base|
    ensures Resolve(base, Ups(n)) == base[..|base| - n]
    decreases n
  {
    if n > 0 {
      assert Ups(n)[1..] == Ups(n - 1);
      ResolveUps(base[..|base| - 1], n - 1);
      assert base[..|base| - 1][..|base| - 1 - (n - 1)] == base[..|base| - n];
    }
  }

  /** Resolving a normalised base against `/`-free parts gives a normalised path. */
  lemma {:induction false} ResolveKeepsNormal(base: Path, parts: seq<Name>)
    requires Normal(base)
    requires forall i :: 0 <= i < |parts| ==> '/' !in parts[i]
    ensures Normal(Resolve(base, parts))
    decreases |parts|
  {
    if |parts| > 0 {
      var next := if parts[0] == "" || parts[0] == "." then base
                  else if parts[0] == ".." then (if |base| == 0 then [] else base[..|base| - 1])
                  else base + [parts[0]];
      assert Normal(next);
      ResolveKeepsNormal(next, parts[1..]);
    }
  }

  /** `os.path.abspath` always produces a normalised absolute path. */
  lemma AbsPathNormal(cwd: Path, s: string)
    requires Normal(cwd)
    ensures Normal(AbsPath(cwd, s))
  {
    ResolveKeepsNormal(if |s| > 0 && s[0] == '/' then [] else cwd, Split(s, '/'));
  }

  // ---------------------------------------------------------------------------
  // Relative paths

  lemma NormalSuffix(p: Path, k: nat)
    requires Normal(p) && k <= |p|
    ensures Normal(p[k..])
  {
    forall i | 0 <= i < |p| - k ensures NormalName(p[k..][i]) {
      assert p[k..][i] == p[k + i];
    }
  }

  /** The climb-then-descend path of `relpath`, before `.` stands in for an empty one. */
  lemma ClimbDescend(path: Path, start: Path, k: nat)
    requires k <= |path| && k <= |start| && path[..k] == start[..k]
    requires Normal(path[k..])
    ensures Resolve(start, Ups(|start| - k) + path[k..]) == path
  {
    var down := path[k..];
    var up := Ups(|start| - k);
    ResolveAppend(start, up, down);
    ResolveUps(start, |start| - k);
    ResolveNormal(start[..k], down);
    assert start[..|start| - (|start| - k)] == start[..k];
    assert path == path[..k] + down;
  }

  /** `relpath` is a true relative path: resolved against `start` it leads back to `path`. */
  lemma RelPathRoundTrip(path: Path, start: Path)
    requires Normal(path)
    ensures Resolve(start, RelPath(path, start)) == path
  {
    var k := CommonPrefixLength(path, start);
    NormalSuffix(path, k);
    ClimbDescend(path, start, k);
  }

  /** Below `start`, `relpath` is the remaining components (or `.` for `start` itself). */
  lemma RelPathBelow(path: Path, start: Path)
    requires start <= path
    ensures RelPath(path, start) == if |path| == |start| then ["."] else path[|start|..]
  {
    var k := CommonPrefixLength(path, start);
    assert Ups(0) == [];
  }

  // ---------------------------------------------------------------------------
  // Path strings

  /** The string of a normalised path reads back as that path, and its basename is the last component. */
  lemma PathStringRoundTrip(cwd: Path, p: Path)
    requires Normal(p) && |p| > 0
    ensures AbsPath(cwd, PathString(p)) == p
    ensures Basename(PathString(p)) == Last(p)
  {
    var s := PathString(p);
    assert forall i :: 0 <= i < |p| ==> '/' !in p[i];
    SplitJoin(p, '/');
    SplitAfterPiece("", Join(p, '/'), '/');
    assert s == "" + ['/'] + Join(p, '/');
    assert Split(s, '/') == [""] + p;
    assert ([""] + p)[1..] == p;
    ResolveNormal([], p);
  }
}

=== FILE: scaffold.dfy ===
/**
 * The directory scaffolding of setup_structure.py (`create_dirs`): a grade ×
 * subject grid of directories under the curriculum root, and a flat list of
 * subject directories under the extracurricular root, each created with
 * `os.makedirs(path, exist_ok=True)`.
 *
 * The file system is the set of existing directories, each a path relative
 * to the current directory given as its component names.
 */
module Scaffold {
  import opened Seqs
  import opened Paths

  const RootCurriculum: Name := "课内"
  const RootExtra: Name := "课外"
  const Grades: seq<Name> := ["一年级", "二年级", "三年级", "四年级", "五年级", "六年级",
                              "初一", "初二", "初三",
                              "高一", "高二", "高三"]
  const SubjectsCurriculum: seq<Name> := ["语文", "数学", "英语"]
  const SubjectsExtra: seq<Name> := ["自然科学", "编程与AI"]

  // ---------------------------------------------------------------------------
  // `os.makedirs`

  /** A path together with all its leading directories. */
  function Ancestors(p: Path): set<Path> {
    set i | 1 <= i <= |p| :: p[..i]
  }

  /** Every leading directory of an existing directory exists: the shape of a real tree. */
  predicate PrefixClosed(dirs: set<Path>) {
    forall p, i :: p in dirs && 1 <= i <= |p| ==> p[..i] in dirs
  }

  datatype MakeResult =
    | Made(dirs: set<Path>)
    | AlreadyExists              // FileExistsError
    | EmptyPath                  // FileNotFoundError for ''

  /** `os.makedirs(p, exist_ok)`: create `p` and every missing leading directory. */
  function MakeDirs(dirs: set<Path>, p: Path, existOk: bool): (r: MakeResult)
    ensures r.Made? <==> |p| > 0 && (existOk || p !in dirs)
    ensures r.AlreadyExists? <==> |p| > 0 && !existOk && p in dirs
    ensures r.Made? ==> dirs <= r.dirs && p in r.dirs
    ensures r.Made? ==> forall q :: q in r.dirs && q !in dirs ==> |q| > 0 && q <= p
  {
    if |p| == 0 then EmptyPath
    else if p in dirs && !existOk then AlreadyExists
    else
      assert p[..|p|] == p;
      Made(dirs + Ancestors(p))
  }

  /** Creating a directory in a real tree leaves a real tree, with the new path and all its leading directories in it. */
  lemma MakeDirsKeepsTree(dirs: set<Path>, p: Path, existOk: bool)
    requires PrefixClosed(dirs)
    requires MakeDirs(dirs, p, existOk).Made?
    ensures PrefixClosed(MakeDirs(dirs, p, existOk).dirs)
    ensures Ancestors(p) <= MakeDirs(dirs, p, existOk).dirs
  {
    var after := MakeDirs(dirs, p, existOk).dirs;
    forall q, i | q in after && 1 <= i <= |q| ensures q[..i] in after {
      if q !in dirs {
        var k :| 1 <= k <= |p| && q == p[..k];
        assert q[..i] == p[..i];
      }
    }
  }

  /** With `exist_ok=True` creation never fails, and repeating it changes nothing. */
  lemma MakeDirsExistOk(dirs: set<Path>, p: Path)
    requires |p| > 0
    ensures MakeDirs(dirs, p, true).Made?
    ensures var once := MakeDirs(dirs, p, true).dirs;
            MakeDirs(once, p, true) == Made(once)
  {
  }

  // ---------------------------------------------------------------------------
  // The targets

  /** `prefix/s` for each `s` of `subjects`, in list order. */
  function Row(prefix: Path, subjects: seq<Name>): seq<Path>
    decreases |subjects|
  {
    if |subjects| == 0 then []
    else Row(prefix, subjects[..|subjects| - 1]) + [prefix + [subjects[|subjects| - 1]]]
  }

  /** `root/g/s` for each grade `g` and then each subject `s`: grade-major order. */
  function Grid(root: Name, grades: seq<Name>, subjects: seq<Name>): seq<Path>
    decreases |grades|
  {
    if |grades| == 0 then []
    else Grid(root, grades[..|grades| - 1], subjects) + Row([root, grades[|grades| - 1]], subjects)
  }

  /** Every path `create_dirs` passes to `os.makedirs`, in call order. */
  function Targets(): seq<Path> {
    Grid(RootCurriculum, Grades, SubjectsCurriculum) + Row([RootExtra], SubjectsExtra)
  }

  lemma {:induction false} RowIndex(prefix: Path, subjects: seq<Name>)
    ensures |Row(prefix, subjects)| == |subjects|
    ensures forall j :: 0 <= j < |subjects| ==> Row(prefix, subjects)[j] == prefix + [subjects[j]]
    decreases |subjects|
  {
    if |subjects| > 0 {
      RowIndex(prefix, subjects[..|subjects| - 1]);
    }
  }

  /** One more subject adds one more path at the end of the row. */
  lemma RowSnoc(prefix: Path, subjects: seq<Name>, j: nat)
    requires j < |subjects|
    ensures Row(prefix, subjects[..j + 1]) == Row(prefix, subjects[..j]) + [prefix + [subjects[j]]]
  {
    assert subjects[..j + 1][..j] == subjects[..j];
  }

  /** One more grade adds its whole row at the end of the grid. */
  lemma GridSnoc(root: Name, grades: seq<Name>, subjects: seq<Name>, i: nat)
    requires i < |grades|
    ensures Grid(root, grades[..i + 1], subjects) == Grid(root, grades[..i], subjects) + Row([root, grades[i]], subjects)
  {
    assert grades[..i + 1][..i] == grades[..i];
  }

  lemma {:induction false} MulMonotone(a: nat, b: nat, m: nat)
    requires a <= b
    ensures a * m <= b * m
    decreases b - a
  {
    if a < b {
      MulMonotone(a + 1, b, m);
      assert (a + 1) * m == a * m + m;
    }
  }

  /** Row `i` of a grid with `m` columns ends before row `n` starts, for `i < n`. */
  lemma RowOffsetBelow(i: nat, j: nat, n: nat, m: nat)
    requires i < n && j < m
    ensures i * m + j < n * m
  {
    MulMonotone(i + 1, n, m);
    assert (i + 1) * m == i * m + m;
  }

  lemma {:induction false} GridLength(root: Name, grades: seq<Name>, subjects: seq<Name>)
    ensures |Grid(root, grades, subjects)| == |grades| * |subjects|
    decreases |grades|
  {
    if |grades| > 0 {
      var n := |grades| - 1;
      GridLength(root, grades[..n], subjects);
      RowIndex([root, grades[n]], subjects);
      assert (n + 1) * |subjects| == n * |subjects| + |subjects|;
    }
  }

  /** Grade-major order: position `i * |subjects| + j` of the grid is `root/grades[i]/subjects[j]`. */
  lemma {:induction false} GridIndex(root: Name, grades: seq<Name>, subjects: seq<Name>, i: nat, j: nat)
    requires i < |grades| && j < |subjects|
    ensures i * |subjects| + j < |Grid(root, grades, subjects)|
    ensures Grid(root, grades, subjects)[i * |subjects| + j] == [root, grades[i], subjects[j]]
    decreases |grades|
  {
    var n := |grades| - 1;
    var m := |subjects|;
    var init := grades[..n];
    var front := Grid(root, init, subjects);
    var row := Row([root, grades[n]], subjects);
    GridLength(root, init, subjects);
    GridLength(root, grades, subjects);
    RowIndex([root, grades[n]], subjects);
    assert Grid(root, grades, subjects) == front + row;
    if i < n {
      GridIndex(root, init, subjects, i, j);
      RowOffsetBelow(i, j, n, m);
      assert init[i] == grades[i];
    } else {
      assert row[j] == [root, grades[n]] + [subjects[j]];
    }
  }

  /**
   * `create_dirs` targets 38 paths: `课内/grade/subject` for the 12 grades
   * and the 3 curriculum subjects, grade-major and in list order, followed by
   * `课外/subject` for the 2 extracurricular subjects.
   */
  lemma TargetsInOrder()
    ensures |Targets()| == 38
    ensures forall i, j :: 0 <= i < 12 && 0 <= j < 3 ==>
              Targets()[3 * i + j] == [RootCurriculum, Grades[i], SubjectsCurriculum[j]]
    ensures forall k :: 0 <= k < 2 ==> Targets()[36 + k] == [RootExtra, SubjectsExtra[k]]
  {
    GridLength(RootCurriculum, Grades, SubjectsCurriculum);
    RowIndex([RootExtra], SubjectsExtra);
    forall i, j | 0 <= i < 12 && 0 <= j < 3
      ensures Targets()[3 * i + j] == [RootCurriculum, Grades[i], SubjectsCurriculum[j]]
    {
      GridIndex(RootCurriculum, Grades, SubjectsCurriculum, i, j);
      assert 3 * i + j == i * |SubjectsCurriculum| + j;
    }
  }

  /** The paths of a row are the prefix extended by one of the subjects. */
  lemma RowMembership(prefix: Path, subjects: seq<Name>, t: Path)
    ensures t in Row(prefix, subjects) <==>
              |t| == |prefix| + 1 && t[..|prefix|] == prefix && t[|prefix|] in subjects
  {
    RowIndex(prefix, subjects);
    if |t| == |prefix| + 1 && t[..|prefix|] == prefix && t[|prefix|] in subjects {
      var j :| 0 <= j < |subjects| && subjects[j] == t[|prefix|];
      assert t == prefix + [subjects[j]];
      assert Row(prefix, subjects)[j] == t;
    }
    if t in Row(prefix, subjects) {
      var j :| 0 <= j < |subjects| && Row(prefix, subjects)[j] == t;
      assert t == prefix + [subjects[j]];
    }
  }

  /** The paths of a grid are exactly `root/g/s` for a grade `g` and a subject `s`. */
  lemma {:induction false} GridMembership(root: Name, grades: seq<Name>, subjects: seq<Name>, t: Path)
    ensures t in Grid(root, grades, subjects) <==>
              |t| == 3 && t[0] == root && t[1] in grades && t[2] in subjects
    decreases |grades|
  {
    if |grades| > 0 {
      var n := |grades| - 1;
      var init := grades[..n];
      GridMembership(root, init, subjects, t);
      RowMembership([root, grades[n]], subjects, t);
      assert grades == init + [grades[n]];
      if |t| == 3 {
        assert t[..2] == [root, grades[n]] <==> t[0] == root && t[1] == grades[n];
      }
    }
  }

  lemma NoDupRow(prefix: Path, subjects: seq<Name>)
    requires NoDup(subjects)
    ensures NoDup(Row(prefix, subjects))
  {
    RowIndex(prefix, subjects);
    var r := Row(prefix, subjects);
    forall i, j | 0 <= i < j < |r| ensures r[i] != r[j] {
      assert r[i][|prefix|] == subjects[i] && r[j][|prefix|] == subjects[j];
    }
  }

  lemma {:induction false} NoDupGrid(root: Name, grades: seq<Name>, subjects: seq<Name>)
    requires NoDup(grades) && NoDup(subjects)
    ensures NoDup(Grid(root, grades, subjects))
    decreases |grades|
  {
    if |grades| > 0 {
      var n := |grades| - 1;
      var init := grades[..n];
      NoDupPrefix(grades, n);
      NoDupGrid(root, init, subjects);
      NoDupRow([root, grades[n]], subjects);
      forall t | t in Grid(root, init, subjects) ensures t !in Row([root, grades[n]], subjects) {
        GridMembership(root, init, subjects, t);
        RowMembership([root, grades[n]], subjects, t);
        var g :| 0 <= g < n && init[g] == t[1];
        assert grades[g] == t[1];
      }
      NoDupConcat(Grid(root, init, subjects), Row([root, grades[n]], subjects));
    }
  }

  /** The targets are exactly the curriculum grid and the extracurricular row. */
  lemma TargetMembership(t: Path)
    ensures t in Targets() <==>
              || (|t| == 3 && t[0] == RootCurriculum && t[1] in Grades && t[2] in SubjectsCurriculum)
              || (|t| == 2 && t[0] == RootExtra && t[1] in SubjectsExtra)
  {
    GridMembership(RootCurriculum, Grades, SubjectsCurriculum, t);
    RowMembership([RootExtra], SubjectsExtra, t);
    if |t| == 2 {
      assert t[..1] == [RootExtra] <==> t[0] == RootExtra;
    }
  }

  /** The 38 targets are pairwise distinct. */
  lemma TargetsDistinct()
    ensures NoDup(Targets())
    ensures |set t | t in Targets()| == 38
  {
    var grid := Grid(RootCurriculum, Grades, SubjectsCurriculum);
    var extra := Row([RootExtra], SubjectsExtra);
    assert NoDup(Grades) && NoDup(SubjectsCurriculum) && NoDup(SubjectsExtra);
    NoDupGrid(RootCurriculum, Grades, SubjectsCurriculum);
    NoDupRow([RootExtra], SubjectsExtra);
    forall t | t in grid ensures t !in extra {
      GridMembership(RootCurriculum, Grades, SubjectsCurriculum, t);
      RowMembership([RootExtra], SubjectsExtra, t);
    }
    NoDupConcat(grid, extra);
    TargetsInOrder();
    NoDupCardinality(Targets());
  }

  // ---------------------------------------------------------------------------
  // `create_dirs`

  /** The directories that exist after every path of `ts` has been created. */
  function Covered(ts: seq<Path>): set<Path> {
    set t, i | t in ts && 1 <= i <= |t| :: t[..i]
  }

  lemma CoveredAppend(a: seq<Path>, b: seq<Path>)
    ensures Covered(a + b) == Covered(a) + Covered(b)
  {
    assert forall t :: t in a + b <==> t in a || t in b;
  }

  lemma CoveredSingle(t: Path)
    ensures Covered([t]) == Ancestors(t)
  {
  }

  /**
   * One inner loop of `create_dirs`: `makedirs(prefix/s, exist_ok=True)` and
   * one `Created:` line for each subject `s`, in list order.
   */
  method CreateRow(dirs: set<Path>, prefix: Path, subjects: seq<Name>) returns (after: set<Path>, log: seq<Path>)
    ensures log == Row(prefix, subjects)
    ensures after == dirs + Covered(log)
  {
    after, log := dirs, [];
    var j := 0;
    while j < |subjects|
      invariant 0 <= j <= |subjects|
      invariant log == Row(prefix, subjects[..j])
      invariant after == dirs + Covered(log)
    {
      var path := prefix + [subjects[j]];
      var made := MakeDirs(after, path, true);
      RowSnoc(prefix, subjects, j);
      CoveredAppend(log, [path]);
      CoveredSingle(path);
      after, log := made.dirs, log + [path];
      j := j + 1;
    }
    assert subjects[..j] == subjects;
  }

  /**
   * `create_dirs`: one `makedirs(..., exist_ok=True)` and one `Created:`
   * line per target, in target order. The directories afterwards are those
   * that existed before plus every target and its leading directories.
   */
  method CreateDirs(dirs: set<Path>) returns (after: set<Path>, log: seq<Path>)
    ensures log == Targets()
    ensures after == dirs + Covered(Targets())
  {
    after, log := dirs, [];
    var i := 0;
    while i < |Grades|
      invariant 0 <= i <= |Grades|
      invariant log == Grid(RootCurriculum, Grades[..i], SubjectsCurriculum)
      invariant after == dirs + Covered(log)
    {
      GridSnoc(RootCurriculum, Grades, SubjectsCurriculum, i);
      var rowDirs, rowLog := CreateRow(after, [RootCurriculum, Grades[i]], SubjectsCurriculum);
      CoveredAppend(log, rowLog);
      after, log := rowDirs, log + rowLog;
      i := i + 1;
    }
    assert Grades[..i] == Grades;
    var extraDirs, extraLog := CreateRow(after, [RootExtra], SubjectsExtra);
    CoveredAppend(log, extraLog);
    after, log := extraDirs, log + extraLog;
  }

  // ---------------------------------------------------------------------------
  // Properties of a run

  /** The directories `create_dirs` leaves behind, starting from `dirs`. */
  function Scaffolded(dirs: set<Path>): set<Path> {
    dirs + Covered(Targets())
  }

  /**
   * Exactly which directories the targets bring into existence: the two
   * roots, `课内/grade` and `课内/grade/subject`, and `课外/subject`. Nothing
   * outside the two roots is ever created.
   */
  lemma CoveredShape(p: Path)
    ensures p in Covered(Targets()) <==>
              || p == [RootCurriculum]
              || (|p| == 2 && p[0] == RootCurriculum && p[1] in Grades)
              || (|p| == 3 && p[0] == RootCurriculum && p[1] in Grades && p[2] in SubjectsCurriculum)
              || p == [RootExtra]
              || (|p| == 2 && p[0] == RootExtra && p[1] in SubjectsExtra)
  {
    var ts := Targets();
    if p in Covered(ts) {
      var t, i :| t in ts && 1 <= i <= |t| && p == t[..i];
      TargetMembership(t);
      assert |p| == i && forall k :: 0 <= k < i ==> p[k] == t[k];
    }
    if |p| == 3 && p[0] == RootCurriculum && p[1] in Grades && p[2] in SubjectsCurriculum {
      TargetMembership(p);
      assert p[..3] == p;
    }
    if |p| == 2 && p[0] == RootCurriculum && p[1] in Grades {
      var t := p + [SubjectsCurriculum[0]];
      TargetMembership(t);
      assert t[..2] == p;
    }
    if p == [RootCurriculum] {
      var t := p + [Grades[0], SubjectsCurriculum[0]];
      TargetMembership(t);
      assert t[..1] == p;
    }
    if |p| == 2 && p[0] == RootExtra && p[1] in SubjectsExtra {
      TargetMembership(p);
      assert p[..2] == p;
    }
    if p == [RootExtra] {
      var t := p + [SubjectsExtra[0]];
      TargetMembership(t);
      assert t[..1] == p;
    }
  }

  /**
   * After `create_dirs` every target and each of its leading directories
   * exists, nothing that existed is removed, and every directory added lies
   * under one of the two roots.
   */
  lemma ScaffoldedContents(dirs: set<Path>)
    ensures forall t :: t in Targets() ==> Ancestors(t) <= Scaffolded(dirs)
    ensures dirs <= Scaffolded(dirs)
    ensures forall p :: p in Scaffolded(dirs) && p !in dirs ==>
              |p| > 0 && (p[0] == RootCurriculum || p[0] == RootExtra)
  {
    forall p | p in Scaffolded(dirs) && p !in dirs
      ensures |p| > 0 && (p[0] == RootCurriculum || p[0] == RootExtra)
    {
      CoveredShape(p);
    }
  }

  /** Running `create_dirs` on a real tree leaves a real tree. */
  lemma ScaffoldedKeepsTree(dirs: set<Path>)
    requires PrefixClosed(dirs)
    ensures PrefixClosed(Scaffolded(dirs))
  {
    var after := Scaffolded(dirs);
    forall q, i | q in after && 1 <= i <= |q| ensures q[..i] in after {
      if q !in dirs {
        var t, k :| t in Targets() && 1 <= k <= |t| && q == t[..k];
        assert q[..i] == t[..i];
      }
    }
  }

  /**
   * Running `create_dirs` a second time leaves the same directories as running
   * it once (its log is `Targets()` either way), and on a tree that already
   * holds every target it changes nothing.
   */
  lemma ScaffoldedIdempotent(dirs: set<Path>)
    ensures Scaffolded(Scaffolded(dirs)) == Scaffolded(dirs)
    ensures Covered(Targets()) <= dirs ==> Scaffolded(dirs) == dirs
  {
  }
}

=== FILE: seqs.dfy ===
/** Generic facts about sequences used by the other modules. */
module Seqs {

  /** No element occurs twice. */
  predicate NoDup<T(==)>(s: seq<T>) {
    forall i, j :: 0 <= i < j < |s| ==> s[i] != s[j]
  }

  /** `a` is obtained from `b` by deleting some elements, keeping the order of the rest. */
  predicate IsSubsequence<T(==)>(a: seq<T>, b: seq<T>)
    decreases |b|
  {
    if |a| == 0 then true
    else if |b| == 0 then false
    else (a[0] == b[0] && IsSubsequence(a[1..], b[1..])) || IsSubsequence(a, b[1..])
  }

  function Last<T>(s: seq<T>): T
    requires |s| > 0
  {
    s[|s| - 1]
  }

  /** A duplicate-free sequence has as many distinct elements as it has positions. */
  lemma {:induction false} NoDupCardinality<T>(s: seq<T>)
    requires NoDup(s)
    ensures |set x | x in s| == |s|
    decreases |s|
  {
    if |s| > 0 {
      var rest := s[1..];
      assert NoDup(rest) by {
        forall i, j | 0 <= i < j < |rest| ensures rest[i] != rest[j] {
          assert rest[i] == s[i + 1] && rest[j] == s[j + 1];
        }
      }
      NoDupCardinality(rest);
      assert s[0] !in rest by {
        forall k | 0 <= k < |rest| ensures rest[k] != s[0] {
          assert rest[k] == s[k + 1];
        }
      }
      assert (set x | x in s) == (set x | x in rest) + {s[0]} by {
        assert s == [s[0]] + rest;
      }
    }
  }

  /** Two duplicate-free sequences with no element in common concatenate to a duplicate-free one. */
  lemma NoDupConcat<T>(a: seq<T>, b: seq<T>)
    requires NoDup(a) && NoDup(b)
    requires forall x :: x in a ==> x !in b
    ensures NoDup(a + b)
  {
    forall i, j | 0 <= i < j < |a + b| ensures (a + b)[i] != (a + b)[j] {
      if j < |a| {
        assert (a + b)[i] == a[i] && (a + b)[j] == a[j];
      } else if i < |a| {
        assert (a + b)[i] == a[i] && (a + b)[j] == b[j - |a|];
        assert a[i] in a;
      } else {
        assert (a + b)[i] == b[i - |a|] && (a + b)[j] == b[j - |a|];
      }
    }
  }

  lemma NoDupPrefix<T>(s: seq<T>, k: nat)
    requires NoDup(s) && k <= |s|
    ensures NoDup(s[..k])
  {
    forall i, j | 0 <= i < j < k ensures s[..k][i] != s[..k][j] {
      assert s[..k][i] == s[i] && s[..k][j] == s[j];
    }
  }
}

=== FILE: text.dfy ===
/**
 * The Python string operations the build script relies on, on strings as
 * character sequences: `startswith`, `endswith`, `replace`, `split` with a
 * one-character separator, and `join`.
 */
module Text {

  /** `s.startswith(p)` */
  predicate StartsWith(s: string, p: string) {
    |p| <= |s| && s[..|p|] == p
  }

  /** `s.endswith(p)` */
  predicate EndsWith(s: string, p: string) {
    |p| <= |s| && s[|s| - |p|..] == p
  }

  /** `t in s`: `t` occurs in `s` at some position. */
  predicate Contains(s: string, t: string)
    decreases |s|
  {
    StartsWith(s, t) || (|s| > 0 && Contains(s[1..], t))
  }

  /**
   * `s.replace(pat, rep)` for a non-empty `pat`: the string is scanned left to
   * right and every occurrence of `pat` that does not overlap an earlier
   * replaced one is replaced by `rep`.
   */
  function ReplaceAll(s: string, pat: string, rep: string): (r: string)
    requires |pat| > 0
    ensures |pat| == |rep| ==> |r| == |s|
    decreases |s|
  {
    if |s| == 0 then ""
    else if StartsWith(s, pat) then rep + ReplaceAll(s[|pat|..], pat, rep)
    else [s[0]] + ReplaceAll(s[1..], pat, rep)
  }

  /** `s.split(sep)` for a one-character separator; never empty, `"".split(sep) == [""]`. */
  function Split(s: string, sep: char): (parts: seq<string>)
    ensures |parts| > 0
    ensures forall i :: 0 <= i < |parts| ==> sep !in parts[i]
    decreases |s|
  {
    if |s| == 0 then [""]
    else
      var rest := Split(s[1..], sep);
      if s[0] == sep then [""] + rest
      else [[s[0]] + rest[0]] + rest[1..]
  }

  /** `sep.join(parts)` for a non-empty list of parts. */
  function Join(parts: seq<string>, sep: char): string
    requires |parts| > 0
    decreases |parts|
  {
    if |parts| == 1 then parts[0]
    else parts[0] + [sep] + Join(parts[1..], sep)
  }

  // ---------------------------------------------------------------------------
  // Occurrences

  lemma {:induction false} ContainsSuffix(s: string, t: string, k: nat)
    requires k <= |s|
    requires Contains(s[k..], t)
    ensures Contains(s, t)
    decreases k
  {
    if k > 0 {
      assert s[1..][k - 1..] == s[k..];
      ContainsSuffix(s[1..], t, k - 1);
    }
  }

  /** An occurrence of a non-empty `t` needs the first character of `t`. */
  lemma {:induction false} ContainsFirstChar(s: string, t: string)
    requires |t| > 0 && t[0] !in s
    ensures !Contains(s, t)
    decreases |s|
  {
    if |s| > 0 {
      assert s[0] != t[0];
      assert forall c :: c in s[1..] ==> c in s;
      ContainsFirstChar(s[1..], t);
    }
  }

  // ---------------------------------------------------------------------------
  // replace

  /** A string without any occurrence of `pat` is left unchanged. */
  lemma {:induction false} ReplaceAllNoMatch(s: string, pat: string, rep: string)
    requires |pat| > 0
    requires !Contains(s, pat)
    ensures ReplaceAll(s, pat, rep) == s
    decreases |s|
  {
    if |s| > 0 {
      ReplaceAllNoMatch(s[1..], pat, rep);
      assert s == [s[0]] + s[1..];
    }
  }

  /** With a different replacement of the same length, any occurrence changes the string. */
  lemma {:induction false} ReplaceAllMatchChanges(s: string, pat: string, rep: string)
    requires |pat| > 0 && |pat| == |rep| && pat != rep
    requires Contains(s, pat)
    ensures ReplaceAll(s, pat, rep) != s
    decreases |s|
  {
    var r := ReplaceAll(s, pat, rep);
    if StartsWith(s, pat) {
      assert r[..|rep|] == rep;
      assert s[..|pat|] == pat;
    } else {
      ReplaceAllMatchChanges(s[1..], pat, rep);
      assert r == [s[0]] + ReplaceAll(s[1..], pat, rep);
      assert r[1..] == ReplaceAll(s[1..], pat, rep);
      assert s[1..] != r[1..];
    }
  }

  /** An occurrence is no longer than the string it occurs in. */
  lemma {:induction false} ContainsLength(s: string, t: string)
    requires Contains(s, t)
    ensures |t| <= |s|
    decreases |s|
  {
    if !StartsWith(s, t) {
      ContainsLength(s[1..], t);
    }
  }

  /** Every character of the rewrite comes from the original or from the replacement. */
  lemma {:induction false} ReplaceAllChars(s: string, pat: string, rep: string, c: char)
    requires |pat| > 0
    requires c in ReplaceAll(s, pat, rep)
    ensures c in s || c in rep
    decreases |s|
  {
    if StartsWith(s, pat) {
      var rest := s[|pat|..];
      if c !in rep {
        ReplaceAllChars(rest, pat, rep, c);
        assert c in s by {
          var k :| 0 <= k < |rest| && rest[k] == c;
          assert s[|pat| + k] == c;
        }
      }
    } else if c != s[0] {
      ReplaceAllChars(s[1..], pat, rep, c);
      assert c in s[1..] ==> c in s;
    }
  }

  /** `s.replace(pat, rep) == s` exactly when `pat` does not occur in `s` (same-length, different `rep`). */
  lemma ReplaceAllUnchangedIff(s: string, pat: string, rep: string)
    requires |pat| > 0 && |pat| == |rep| && pat != rep
    ensures ReplaceAll(s, pat, rep) == s <==> !Contains(s, pat)
  {
    if Contains(s, pat) {
      ReplaceAllMatchChanges(s, pat, rep);
    } else {
      ReplaceAllNoMatch(s, pat, rep);
    }
  }

  /**
   * A non-empty prefix `a` without `pat` cannot be followed by an occurrence
   * that starts inside `a`, when the first character of `pat` does not recur.
   */
  lemma NoStraddle(a: string, b: string, pat: string)
    requires |a| > 0 && |pat| > 0 && pat[0] !in pat[1..]
    requires !Contains(a, pat)
    ensures !StartsWith(a + pat + b, pat)
  {
    var s := a + pat + b;
    if |a| >= |pat| {
      assert s[..|pat|] == a[..|pat|];
    } else {
      var d := |a|;
      assert s[d] == pat[0];
      assert pat[1..][d - 1] == pat[d];
      assert pat[d] != pat[0];
      assert |pat| <= |s| ==> s[..|pat|][d] != pat[d];
    }
  }

  /** A string ending with a non-self-overlapping `pat` and shorter than two copies cannot also start with it. */
  lemma NoSelfOverlap(s: string, pat: string)
    requires |pat| > 0 && pat[0] !in pat[1..]
    requires EndsWith(s, pat) && |pat| < |s| < 2 * |pat|
    ensures !StartsWith(s, pat)
  {
    var d := |s| - |pat|;
    assert s[d..] == pat;
    assert s[d] == pat[0];
    assert pat[1..][d - 1] == pat[d];
    assert pat[d] != pat[0];
    assert s[..|pat|][d] != pat[d];
  }

  /**
   * When the first character of `pat` does not recur inside `pat`, no
   * occurrence can straddle the end of a prefix that itself contains none,
   * so `a + pat + b` is rewritten as `a + rep + (b rewritten)`.
   */
  lemma {:induction false} ReplaceAllAfterClean(a: string, b: string, pat: string, rep: string)
    requires |pat| > 0 && pat[0] !in pat[1..]
    requires !Contains(a, pat)
    ensures ReplaceAll(a + pat + b, pat, rep) == a + rep + ReplaceAll(b, pat, rep)
    decreases |a|
  {
    var s := a + pat + b;
    if |a| == 0 {
      assert s == pat + b;
      assert s[|pat|..] == b;
    } else {
      NoStraddle(a, b, pat);
      assert s[1..] == a[1..] + pat + b;
      ReplaceAllAfterClean(a[1..], b, pat, rep);
      assert a == [a[0]] + a[1..];
    }
  }

  /**
   * A string that ends with `pat` still ends with `rep` after the rewrite,
   * provided `pat` cannot overlap itself (its first character does not recur).
   */
  lemma {:induction false} ReplaceAllKeepsSuffix(s: string, pat: string, rep: string)
    requires |pat| > 0 && pat[0] !in pat[1..]
    requires EndsWith(s, pat)
    ensures EndsWith(ReplaceAll(s, pat, rep), rep)
    decreases |s|
  {
    var r := ReplaceAll(s, pat, rep);
    if StartsWith(s, pat) {
      var rest := s[|pat|..];
      if |s| == |pat| {
        assert rest == "";
        assert r == rep;
      } else if |s| < 2 * |pat| {
        NoSelfOverlap(s, pat);
        assert false;
      } else {
        assert rest[|rest| - |pat|..] == s[|s| - |pat|..];
        ReplaceAllKeepsSuffix(rest, pat, rep);
        var rr := ReplaceAll(rest, pat, rep);
        assert r == rep + rr;
        assert r[|r| - |rep|..] == rr[|rr| - |rep|..];
      }
    } else {
      assert s[..|s|] == s == s[0..];
      assert |s| > |pat|;
      assert s[1..][|s[1..]| - |pat|..] == s[|s| - |pat|..];
      ReplaceAllKeepsSuffix(s[1..], pat, rep);
      var rr := ReplaceAll(s[1..], pat, rep);
      assert r == [s[0]] + rr;
      assert r[|r| - |rep|..] == rr[|rr| - |rep|..];
    }
  }

  /** The first character of the rewrite is the first of `rep` or the first of `x`. */
  lemma ReplaceAllHead(x: string, pat: string, rep: string)
    requires |pat| > 0 && |rep| > 0 && |x| > 0
    ensures |ReplaceAll(x, pat, rep)| > 0
    ensures ReplaceAll(x, pat, rep)[0] == if StartsWith(x, pat) then rep[0] else x[0]
  {
  }

  /**
   * If the rewritten string starts with `w`, and `w` avoids the first character
   * of `rep`, the original started with `w` as well: the rewrite never
   * produces a prefix it did not copy.
   */
  lemma {:induction false} ReplaceAllPrefixCopied(x: string, w: string, pat: string, rep: string)
    requires |pat| > 0 && |rep| > 0
    requires rep[0] !in w
    requires StartsWith(ReplaceAll(x, pat, rep), w)
    ensures StartsWith(x, w)
    decreases |w|
  {
    if |w| > 0 {
      var r := ReplaceAll(x, pat, rep);
      assert r[0] == w[0] && w[0] != rep[0];
      ReplaceAllHead(x, pat, rep);
      assert r == [x[0]] + ReplaceAll(x[1..], pat, rep);
      assert r[1..] == ReplaceAll(x[1..], pat, rep);
      assert r[1..][..|w| - 1] == w[1..];
      ReplaceAllPrefixCopied(x[1..], w[1..], pat, rep);
      assert x[..|w|] == [x[0]] + x[1..][..|w| - 1];
    }
  }

  /**
   * Rewriting `pat` to `rep` and then `rep` back to `pat` restores any string
   * in which `rep` did not occur, provided the first character of `rep` does
   * not recur inside `rep`.
   */
  lemma {:induction false} ReplaceAllInverse(s: string, pat: string, rep: string)
    requires |pat| > 0 && |rep| > 0 && rep[0] !in rep[1..]
    requires !Contains(s, rep)
    ensures ReplaceAll(ReplaceAll(s, pat, rep), rep, pat) == s
    decreases |s|
  {
    if |s| > 0 {
      var r := ReplaceAll(s, pat, rep);
      if StartsWith(s, pat) {
        var rest := s[|pat|..];
        if Contains(rest, rep) {
          ContainsSuffix(s, rep, |pat|);
        }
        ReplaceAllInverse(rest, pat, rep);
        var y := ReplaceAll(rest, pat, rep);
        assert r == rep + y;
        assert StartsWith(r, rep);
        assert r[|rep|..] == y;
        assert s == pat + rest;
      } else {
        var rest := s[1..];
        ReplaceAllInverse(rest, pat, rep);
        var y := ReplaceAll(rest, pat, rep);
        assert r == [s[0]] + y;
        if StartsWith(r, rep) {
          assert r[1..] == y;
          assert StartsWith(y, rep[1..]) by {
            assert y[..|rep| - 1] == r[..|rep|][1..];
          }
          ReplaceAllPrefixCopied(rest, rep[1..], pat, rep);
          assert false;
        }
        assert r[1..] == y;
        assert s == [s[0]] + rest;
      }
    }
  }

  // ---------------------------------------------------------------------------
  // split and join

  /** Joining the pieces of a split with the same separator gives back the string. */
  lemma {:induction false} JoinSplit(s: string, sep: char)
    ensures Join(Split(s, sep), sep) == s
    decreases |s|
  {
    if |s| > 0 {
      var rest := Split(s[1..], sep);
      JoinSplit(s[1..], sep);
      var parts := Split(s, sep);
      if s[0] == sep {
        assert parts == [""] + rest;
        assert parts[1..] == rest;
      } else {
        assert parts == [[s[0]] + rest[0]] + rest[1..];
        if |rest| > 1 {
          assert parts[1..] == rest[1..];
        }
      }
      assert s == [s[0]] + s[1..];
    }
  }

  /** Splitting `w + [sep] + t`, where `w` has no separator, yields `w` followed by the pieces of `t`. */
  lemma {:induction false} SplitAfterPiece(w: string, t: string, sep: char)
    requires sep !in w
    ensures Split(w + [sep] + t, sep) == [w] + Split(t, sep)
    decreases |w|
  {
    var s := w + [sep] + t;
    if |w| == 0 {
      assert s[1..] == t;
    } else {
      assert s[1..] == w[1..] + [sep] + t;
      SplitAfterPiece(w[1..], t, sep);
      assert w == [w[0]] + w[1..];
    }
  }

  /** A string without the separator splits into itself. */
  lemma {:induction false} SplitWithoutSeparator(w: string, sep: char)
    requires sep !in w
    ensures Split(w, sep) == [w]
    decreases |w|
  {
    if |w| > 0 {
      SplitWithoutSeparator(w[1..], sep);
      assert w == [w[0]] + w[1..];
    }
  }

  /** Splitting a join of separator-free pieces gives back the pieces. */
  lemma {:induction false} SplitJoin(parts: seq<string>, sep: char)
    requires |parts| > 0
    requires forall i :: 0 <= i < |parts| ==> sep !in parts[i]
    ensures Split(Join(parts, sep), sep) == parts
    decreases |parts|
  {
    if |parts| == 1 {
      SplitWithoutSeparator(parts[0], sep);
    } else {
      SplitJoin(parts[1..], sep);
      SplitAfterPiece(parts[0], Join(parts[1..], sep), sep);
      assert parts == [parts[0]] + parts[1..];
    }
  }

  /** Joining two non-empty lists puts one separator between their joins. */
  lemma {:induction false} JoinAppend(a: seq<string>, b: seq<string>, sep: char)
    requires |a| > 0 && |b| > 0
    ensures Join(a + b, sep) == Join(a, sep) + [sep] + Join(b, sep)
    decreases |a|
  {
    if |a| > 1 {
      assert (a + b)[1..] == a[1..] + b;
      JoinAppend(a[1..], b, sep);
    } else {
      assert (a + b)[1..] == b;
    }
  }
}

=== FILE: walk.dfy ===
/**
 * The full-tree traversal of build.py: a top-down `os.walk` from the root in
 * which the caller prunes `.git`, and `output` when it is the output root,
 * from each directory's subdirectory list before the walk descends.
 *
 * A directory tree is given as its listing; the order of `subdirs` and
 * `files` is the order in which the operating system lists them.
 */
module Walk {
  import opened Seqs
  import opened Paths

  datatype Tree = Dir(name: Name, subdirs: seq<Tree>, files: seq<Name>)

  /** One `(root, dirs, files)` triple produced by the walk. */
  datatype Entry = Entry(dir: Path, subdirs: seq<Name>, files: seq<Name>)

  function Names(ts: seq<Tree>): (ns: seq<Name>)
    ensures |ns| == |ts|
    ensures forall i :: 0 <= i < |ts| ==> ns[i] == ts[i].name
  {
    seq(|ts|, i requires 0 <= i < |ts| => ts[i].name)
  }

  /** A real listing: no two children of a directory share a name, at any depth. */
  predicate WellFormed(t: Tree)
    decreases t
  {
    && NoDup(Names(t.subdirs))
    && forall i :: 0 <= i < |t.subdirs| ==> WellFormed(t.subdirs[i])
  }

  /** Every name in the listing is a real directory entry name (no `/`, not `.` or `..`). */
  predicate NormalTree(t: Tree)
    decreases t
  {
    && (forall i :: 0 <= i < |t.files| ==> NormalName(t.files[i]))
    && (forall i :: 0 <= i < |t.subdirs| ==> NormalName(t.subdirs[i].name) && NormalTree(t.subdirs[i]))
  }

  /** `list.remove(x)`: drop the first occurrence. */
  function RemoveFirst(xs: seq<Name>, x: Name): (r: seq<Name>)
    decreases |xs|
  {
    if |xs| == 0 then []
    else if xs[0] == x then xs[1..]
    else [xs[0]] + RemoveFirst(xs[1..], x)
  }

  /**
   * The pruning build.py applies to `dirs` in the directory `dir`: `.git` is
   * always removed; `output` is removed only when `dir/output` is the
   * output root.
   */
  function Prune(dir: Path, output: Path, dirs: seq<Name>): seq<Name> {
    var noGit := if ".git" in dirs then RemoveFirst(dirs, ".git") else dirs;
    if "output" in noGit && dir + ["output"] == output then RemoveFirst(noGit, "output") else noGit
  }

  /** The entries of the walk of `t`, located at `dir`, in the order they are produced. */
  function WalkFrom(dir: Path, t: Tree, output: Path): seq<Entry>
    decreases t, 1
  {
    var names := Names(t.subdirs);
    [Entry(dir, names, t.files)] + WalkChildren(dir, t.subdirs, Prune(dir, output, names), output)
  }

  /** The walks of those children whose names survived pruning, in listing order. */
  function WalkChildren(dir: Path, ts: seq<Tree>, kept: seq<Name>, output: Path): seq<Entry>
    decreases ts, 0
  {
    if |ts| == 0 then []
    else
      (if ts[0].name in kept then WalkFrom(dir + [ts[0].name], ts[0], output) else [])
      + WalkChildren(dir, ts[1..], kept, output)
  }

  // ---------------------------------------------------------------------------
  // Pruning

  lemma {:induction false} RemoveFirstMembership(xs: seq<Name>, x: Name, y: Name)
    requires NoDup(xs)
    ensures NoDup(RemoveFirst(xs, x))
    ensures y in RemoveFirst(xs, x) <==> y in xs && y != x
    decreases |xs|
  {
    if |xs| > 0 {
      assert NoDup(xs[1..]) by {
        forall i, j | 0 <= i < j < |xs[1..]| ensures xs[1..][i] != xs[1..][j] {
          assert xs[1..][i] == xs[i + 1] && xs[1..][j] == xs[j + 1];
        }
      }
      assert xs[0] !in xs[1..] by {
        forall k | 0 <= k < |xs[1..]| ensures xs[1..][k] != xs[0] {
          assert xs[1..][k] == xs[k + 1];
        }
      }
      if xs[0] != x {
        RemoveFirstMembership(xs[1..], x, y);
        RemoveFirstMembership(xs[1..], x, xs[0]);
        var r := RemoveFirst(xs[1..], x);
        assert RemoveFirst(xs, x) == [xs[0]] + r;
        assert NoDup([xs[0]] + r) by {
          forall i, j | 0 <= i < j < |[xs[0]] + r| ensures ([xs[0]] + r)[i] != ([xs[0]] + r)[j] {
            if i == 0 {
              assert ([xs[0]] + r)[j] == r[j - 1];
              assert r[j - 1] in r;
            } else {
              assert ([xs[0]] + r)[i] == r[i - 1] && ([xs[0]] + r)[j] == r[j - 1];
            }
          }
        }
      }
      assert xs == [xs[0]] + xs[1..];
    }
  }

  /**
   * In a listing without duplicates, a subdirectory survives pruning exactly
   * when it is not `.git` and is not the output root.
   */
  lemma PruneMembership(dir: Path, output: Path, dirs: seq<Name>, y: Name)
    requires NoDup(dirs)
    ensures y in Prune(dir, output, dirs) <==>
              y in dirs && y != ".git" && !(y == "output" && dir + ["output"] == output)
  {
    RemoveFirstMembership(dirs, ".git", y);
    var noGit := if ".git" in dirs then RemoveFirst(dirs, ".git") else dirs;
    RemoveFirstMembership(dirs, ".git", "output");
    RemoveFirstMembership(noGit, "output", y);
  }

  // ---------------------------------------------------------------------------
  // Where the walk goes

  /** Every entry of the walk lies at or below its starting directory. */
  lemma {:induction false} WalkBelow(dir: Path, t: Tree, output: Path)
    ensures forall e :: e in WalkFrom(dir, t, output) ==> dir <= e.dir
    decreases t, 1
  {
    var names := Names(t.subdirs);
    WalkChildrenBelow(dir, t.subdirs, Prune(dir, output, names), output);
  }

  /** Every entry of a children walk lies strictly below `dir`, inside a kept child. */
  lemma {:induction false} WalkChildrenBelow(dir: Path, ts: seq<Tree>, kept: seq<Name>, output: Path)
    ensures forall e :: e in WalkChildren(dir, ts, kept, output) ==>
              dir < e.dir && e.dir[|dir|] in kept && e.dir[|dir|] in Names(ts)
    decreases ts, 0
  {
    if |ts| > 0 {
      var c := ts[0];
      if c.name in kept {
        WalkBelow(dir + [c.name], c, output);
        forall e | e in WalkFrom(dir + [c.name], c, output)
          ensures dir < e.dir && e.dir[|dir|] == c.name
        {
          assert (dir + [c.name])[|dir|] == c.name;
          assert e.dir[..|dir| + 1] == dir + [c.name];
        }
      }
      WalkChildrenBelow(dir, ts[1..], kept, output);
      assert Names(ts)[0] == c.name;
      forall n | n in Names(ts[1..]) ensures n in Names(ts) {
        var i :| 0 <= i < |ts[1..]| && Names(ts[1..])[i] == n;
        assert Names(ts)[i + 1] == n;
      }
    }
  }

  /** No entry of a walk from `dir` passes through a `.git` directory below `dir`. */
  lemma {:induction false} WalkSkipsGit(dir: Path, t: Tree, output: Path)
    requires WellFormed(t)
    ensures forall e :: e in WalkFrom(dir, t, output) ==> dir <= e.dir && ".git" !in e.dir[|dir|..]
    decreases t, 1
  {
    var names := Names(t.subdirs);
    var kept := Prune(dir, output, names);
    forall n | n in kept ensures n != ".git" {
      PruneMembership(dir, output, names, n);
    }
    WalkChildrenSkipGit(dir, t.subdirs, kept, output);
  }

  lemma {:induction false} WalkChildrenSkipGit(dir: Path, ts: seq<Tree>, kept: seq<Name>, output: Path)
    requires forall i :: 0 <= i < |ts| ==> WellFormed(ts[i])
    requires ".git" !in kept
    ensures forall e :: e in WalkChildren(dir, ts, kept, output) ==> dir <= e.dir && ".git" !in e.dir[|dir|..]
    decreases ts, 0
  {
    if |ts| > 0 {
      var c := ts[0];
      if c.name in kept {
        var sub := dir + [c.name];
        WalkSkipsGit(sub, c, output);
        forall e | e in WalkFrom(sub, c, output) ensures dir <= e.dir && ".git" !in e.dir[|dir|..] {
          assert e.dir[..|dir|] == sub[..|dir|] == dir;
          assert e.dir[|dir|..] == [c.name] + e.dir[|sub|..];
        }
      }
      WalkChildrenSkipGit(dir, ts[1..], kept, output);
    }
  }

  /**
   * Walking from the root with the output root `root/output`, no entry lies
   * in or below the output root: the only way into it, `output` directly
   * under the root, is pruned.
   */
  lemma WalkSkipsOutput(root: Path, t: Tree, output: Path)
    requires WellFormed(t) && output == root + ["output"]
    ensures forall e :: e in WalkFrom(root, t, output) ==> !(output <= e.dir)
  {
    var names := Names(t.subdirs);
    var kept := Prune(root, output, names);
    PruneMembership(root, output, names, "output");
    WalkChildrenBelow(root, t.subdirs, kept, output);
    forall e | e in WalkFrom(root, t, output) ensures !(output <= e.dir) {
      if e in WalkChildren(root, t.subdirs, kept, output) {
        assert e.dir[|root|] in kept;
        assert e.dir[|root|] != "output";
        assert |output| <= |e.dir| ==> e.dir[..|output|][|root|] == e.dir[|root|];
        assert output[|root|] == "output";
      } else {
        assert e.dir == root;
      }
    }
  }

  // ---------------------------------------------------------------------------
  // What the walk produces

  /** From a normalised directory, every entry is a normalised directory listing normal file names. */
  lemma {:induction false} WalkNormal(dir: Path, t: Tree, output: Path)
    requires Normal(dir) && NormalTree(t)
    ensures forall e :: e in WalkFrom(dir, t, output) ==>
              Normal(e.dir) && forall j :: 0 <= j < |e.files| ==> NormalName(e.files[j])
    decreases t, 1
  {
    WalkChildrenNormal(dir, t.subdirs, Prune(dir, output, Names(t.subdirs)), output);
  }

  lemma {:induction false} WalkChildrenNormal(dir: Path, ts: seq<Tree>, kept: seq<Name>, output: Path)
    requires Normal(dir)
    requires forall i :: 0 <= i < |ts| ==> NormalName(ts[i].name) && NormalTree(ts[i])
    ensures forall e :: e in WalkChildren(dir, ts, kept, output) ==>
              Normal(e.dir) && forall j :: 0 <= j < |e.files| ==> NormalName(e.files[j])
    decreases ts, 0
  {
    if |ts| > 0 {
      if ts[0].name in kept {
        WalkNormal(dir + [ts[0].name], ts[0], output);
      }
      WalkChildrenNormal(dir, ts[1..], kept, output);
    }
  }

  /** The walk starts with the listing of its own directory. */
  lemma WalkStartsAtDir(dir: Path, t: Tree, output: Path)
    ensures WalkFrom(dir, t, output)[0] == Entry(dir, Names(t.subdirs), t.files)
  {
  }

  /** The parent directory of entry `j` was produced by an earlier entry. */
  predicate ParentBefore(w: seq<Entry>, j: int)
    requires 0 <= j < |w|
  {
    exists i :: 0 <= i < j && w[i].dir == Dirname(w[j].dir)
  }

  /** A top-down walk from `dir`: it starts there, and every later entry lies below it with its parent produced before it. */
  predicate TopDownFrom(dir: Path, w: seq<Entry>) {
    && |w| > 0 && w[0].dir == dir
    && forall j :: 0 < j < |w| ==> |dir| < |w[j].dir| && ParentBefore(w, j)
  }

  /** The entries of a children walk lie below `dir`, each with its parent `dir` itself or produced before it. */
  predicate ChildrenTopDown(dir: Path, c: seq<Entry>) {
    forall j :: 0 <= j < |c| ==> |dir| < |c[j].dir| && (Dirname(c[j].dir) == dir || ParentBefore(c, j))
  }

  /**
   * The walk is top-down: it starts at its own directory, and every later
   * entry lies below it and has its parent directory produced before it.
   */
  lemma {:induction false} WalkTopDown(dir: Path, t: Tree, output: Path)
    ensures TopDownFrom(dir, WalkFrom(dir, t, output))
    decreases t, 1
  {
    var kept := Prune(dir, output, Names(t.subdirs));
    var c := WalkChildren(dir, t.subdirs, kept, output);
    WalkChildrenTopDown(dir, t.subdirs, kept, output);
    assert ChildrenTopDown(dir, c);
    var w := WalkFrom(dir, t, output);
    assert w == [Entry(dir, Names(t.subdirs), t.files)] + c;
    forall j | 0 < j < |w| ensures |dir| < |w[j].dir| && ParentBefore(w, j) {
      assert w[j] == c[j - 1];
      assert |dir| < |c[j - 1].dir|;
      if Dirname(c[j - 1].dir) == dir {
        assert w[0].dir == Dirname(w[j].dir);
      } else {
        assert ParentBefore(c, j - 1);
        var i :| 0 <= i < j - 1 && c[i].dir == Dirname(c[j - 1].dir);
        assert w[i + 1] == c[i];
      }
    }
  }

  /**
   * In a children walk every entry lies strictly below `dir`, and its parent
   * is `dir` itself or was produced before it.
   */
  lemma {:induction false} WalkChildrenTopDown(dir: Path, ts: seq<Tree>, kept: seq<Name>, output: Path)
    ensures ChildrenTopDown(dir, WalkChildren(dir, ts, kept, output))
    decreases ts, 0
  {
    if |ts| > 0 {
      var sub := dir + [ts[0].name];
      var b := WalkChildren(dir, ts[1..], kept, output);
      WalkChildrenTopDown(dir, ts[1..], kept, output);
      assert ChildrenTopDown(dir, b);
      var a: seq<Entry> := [];
      if ts[0].name in kept {
        a := WalkFrom(sub, ts[0], output);
        WalkTopDown(sub, ts[0], output);
        assert TopDownFrom(sub, a);
      }
      var c := WalkChildren(dir, ts, kept, output);
      assert c == a + b;
      forall j | 0 <= j < |c|
        ensures |dir| < |c[j].dir| && (Dirname(c[j].dir) == dir || ParentBefore(c, j))
      {
        if j < |a| {
          assert c[j] == a[j];
          if j == 0 {
            assert a[0].dir == sub;
            assert Dirname(sub) == dir;
          } else {
            assert |sub| < |a[j].dir| && ParentBefore(a, j);
            var i :| 0 <= i < j && a[i].dir == Dirname(a[j].dir);
            assert c[i] == a[i];
          }
        } else {
          var k := j - |a|;
          assert c[j] == b[k];
          assert |dir| < |b[k].dir|;
          if Dirname(b[k].dir) != dir {
            assert ParentBefore(b, k);
            var i :| 0 <= i < k && b[i].dir == Dirname(b[k].dir);
            assert c[i + |a|] == b[i];
          }
        }
      }
    }
  }

  /** Every child that survives pruning is visited, with its own listing. */
  lemma {:induction false} WalkChildrenVisitsKept(dir: Path, ts: seq<Tree>, kept: seq<Name>, output: Path, i: nat)
    requires i < |ts| && ts[i].name in kept
    ensures Entry(dir + [ts[i].name], Names(ts[i].subdirs), ts[i].files) in WalkChildren(dir, ts, kept, output)
    decreases |ts|
  {
    if i == 0 {
      WalkStartsAtDir(dir + [ts[0].name], ts[0], output);
    } else {
      WalkChildrenVisitsKept(dir, ts[1..], kept, output, i - 1);
    }
  }

  /**
   * The walk descends into exactly the subdirectories that survive pruning: a
   * child of `dir` is visited precisely when it is not `.git` and is not the
   * output root.
   */
  lemma WalkVisitsUnpruned(dir: Path, t: Tree, output: Path, i: nat)
    requires WellFormed(t) && i < |t.subdirs|
    ensures var c := t.subdirs[i];
            Entry(dir + [c.name], Names(c.subdirs), c.files) in WalkFrom(dir, t, output) <==>
              c.name != ".git" && !(c.name == "output" && dir + ["output"] == output)
  {
    var c := t.subdirs[i];
    var names := Names(t.subdirs);
    var kept := Prune(dir, output, names);
    PruneMembership(dir, output, names, c.name);
    assert names[i] == c.name;
    if c.name in kept {
      WalkChildrenVisitsKept(dir, t.subdirs, kept, output, i);
    } else {
      WalkChildrenBelow(dir, t.subdirs, kept, output);
      var x := Entry(dir + [c.name], Names(c.subdirs), c.files);
      assert x.dir[|dir|] == c.name;
      assert x !in WalkChildren(dir, t.subdirs, kept, output);
      assert x != WalkFrom(dir, t, output)[0] by {
        assert |x.dir| != |dir|;
      }
    }
  }
}
